=== FILE: README.md ===
# Claim-decision core of llm_doc_processor, in Dafny

llm_doc_processor answers insurance claim queries. A query such as
"46-year-old male, knee surgery in Pune, 3-month-old insurance policy" is
turned into slots by `extract_slots`. A language model then proposes a
decision and an amount. `apply_rules` re-checks that proposal against four
fixed business rules:

1. waiting period;
2. age limit;
3. cosmetic-procedure exclusion;
4. payout cap.

The rules may override the proposal, and they record an audit trail of rule
events. `build_final_response` assembles the record that `process_query`
stores.

This project models three parts of the Python code:

- **`apply_rules`** as a left-to-right fold of the four rules over a running
  state, in module `Rules`.
- **The regular-expression half of `extract_slots`**, in module `Intake`.
  Each pattern has two definitions:
  - an executable matcher that follows Python's backtracking order;
  - a declarative reading of the pattern.

  The two are proved to agree, and each slot is proved to be the leftmost
  match. spaCy's named entities are an input list of (label, text) pairs.
- **`build_final_response`** and the `process_query` composition, in modules
  `Assemble` and `Pipeline`. Retrieval, clause summaries and the model's
  reply are inputs.

The other modules:

- `Text` holds character classes, ASCII case folding, Python's `re.search`
  as a leftmost search, and the alternation matcher.
- `Records` holds the slot values and the model's decision record. A key of
  a JSON reply is either missing, `null` or present.
- `Scenarios` works two claims through the model:
  - a claim with age 46, policy duration "3-month-old" and procedure "knee
    surgery", on a proposal to approve 50000;
  - the repository's sample query (`app/test_pipeline.py:7`).

Behaviour of the code that the model keeps:

- **A missing duration fails.** A missing duration is read as ""
  (`rules.py:21`) and `months` starts at 0 (`rules.py:22`). So a missing
  duration, or one without a month phrase, records `failed` and rejects the
  claim. A duration that is not a string makes `re.search` raise inside the
  `try`, and then rule 1 records nothing.
- **The month pattern is case-sensitive.** `re.search` at `rules.py:25` has
  no IGNORECASE flag, so "3 Months" counts as 0 months.
- **`apply_rules` is not total.** It raises `KeyError` when the decision key
  is missing (`rules.py:15`). It raises `AttributeError` when the procedure
  slot is not a string, or `TypeError` for bytes, because line 75 is outside
  any `try`. Both errors are modelled as a `Result` failure. A third error is outside the model: for a
  truthy amount that is not a number, `final_amount > 100000` at
  `rules.py:86` raises `TypeError` unless an earlier rule zeroed the amount.
  The model's amount is an integer, `null` or missing, so its claims that
  only the first two errors occur hold for those amounts only.
- **The duration slot can come from the age phrase.** On the repository's
  sample query, the duration pattern matches leftmost. It takes "46-year"
  from the age phrase, not "3-month-old". The rules therefore count 0
  months, and they reject that query whatever the model proposes
  (`Scenarios.SampleQueryRejected`).

## Model

| member | source | states |
|---|---|---|
| Records.UnparsedReply | llm_doc_processor/core/llm.py:103-107 | a reply that is not JSON becomes a record whose decision reads back as "unknown", whose amount reads back as `None`, and whose trace is the raw reply alone |
| Records.ParseInt | llm_doc_processor/core/rules.py:51 | `int()` on a string of ASCII digits yields its decimal value |
| Records.IntOf | llm_doc_processor/core/rules.py:51 | no contract of its own: `int(value)` of a slot, with `None` for the exception; `Rules.AgeLimitVerdict` states the verdict it leads to |
| Records.IntSpace | llm_doc_processor/core/rules.py:51 | no contract of its own: the ASCII whitespace `int()` strips, space and `\t` to `\r`; `Records.Strip` and `Records.SeparatorNotStripped` state how it is used |
| Records.Field.Get | llm_doc_processor/core/rules.py:16 | no contract of its own: `dict.get(key)`, with `None` for a missing key and for `null`, also at `assemble.py:10-11`; `Assemble.BuildFinalResponse` and `Rules.PayoutVerdict` state the values it yields |
| Records.Strip | llm_doc_processor/core/rules.py:51 | the whitespace `int()` strips from both ends of a string, space and `\t` to `\r`, is gone: the result is no longer than the input and neither starts nor ends with such a character |
| Records.SeparatorNotStripped | llm_doc_processor/core/rules.py:51 | `int()` does not strip the `\x1c` that `\s` matches: the age string `"\x1c46"` does not parse, while `" 46"` reads as 46 |
| Text.Search | llm_doc_processor/core/intake.py:22 | `re.search` returns the first position where the pattern matches, and the end of that match; when it finds nothing, the pattern matches nowhere |
| Text.DigitsEnd | llm_doc_processor/core/rules.py:25 | the greedy `\d+`, also in the age and duration patterns of `intake.py`: every character from the start to the end is a digit, and the character at the end, if any, is not |
| Text.DecimalValue | llm_doc_processor/core/rules.py:27 | no contract of its own: `int()` of an ASCII digit string, also at `rules.py:51` and `intake.py:25`; `Text.TwoDigitValue` and `Records.ParseInt` state its value |
| Text.FirstFit | llm_doc_processor/core/intake.py:9-13 | the regex engine tries the words of an alternation in order: the result is the first word that fits at the position, no earlier word fits, and there is none only when no word fits |
| Text.WordEnd | llm_doc_processor/core/intake.py:9-13 | a match of an alternation ends at or after its start and within the text; `Text.WordEndParse` states exactly where |
| Text.Contains | llm_doc_processor/core/rules.py:75 | no contract of its own: `w in s` on strings; `Text.AbsentLetter` and `Rules.ProcedureVerdict` state what it decides |
| Text.IsSpace | llm_doc_processor/core/intake.py:12 | no contract of its own: `\s` within ASCII, including `\x1c` to `\x1f`; `Records.SeparatorNotStripped` states the difference from the whitespace `int()` strips, and `Intake.LocationAtParse` the runs it admits |
| Text.TwoDigitValue | llm_doc_processor/core/intake.py:24-25 | `int()` of the two-digit age group is ten times the first digit plus the second, between 0 and 99 |
| Text.WordEndParse | llm_doc_processor/core/intake.py:11 | on an alternation whose words exclude each other, the first-fit matcher ends at `j` exactly when the text from the start to `j` is one of the words in some casing, with the boundary if required |
| Text.AbsentLetter | llm_doc_processor/core/rules.py:75 | a word cannot occur in a text that lacks one of its letters |
| Text.LowerStr | llm_doc_processor/core/rules.py:75 | no contract of its own: `str.lower()`, which is also the case folding of `re.IGNORECASE` at `intake.py:22`; `Rules.ProcedureVerdict` states the verdict it leads to and `Text.WordEndParse` the case-insensitive matches |
| Text.Boundary | llm_doc_processor/core/intake.py:9-10 | no contract of its own: `\b`, a word character on exactly one side of the position; `Text.WordEndParse` states the matches that require it |
| Rules.MonthAt | llm_doc_processor/core/rules.py:25 | no contract of its own: the month pattern tried at one position; `Rules.MonthAtLongest` and `Rules.SearchFindsLeftmost` state what it matches |
| Rules.MonthUnitAt | llm_doc_processor/core/rules.py:25 | no contract of its own: `(month\|mo)` tried in order, "month" first; `Rules.MonthAtLongest` and `Rules.MonthParseUnit` state what it matches |
| Rules.MonthAtLongest | llm_doc_processor/core/rules.py:25 | at a position, the matcher for `(\d+)[- ]?(month\|mo)` succeeds exactly when the pattern can match there; its match is the longest, and its digit group is the whole digit run |
| Rules.SearchFindsLeftmost | llm_doc_processor/core/rules.py:25 | the search stops at the first position where the month pattern matches |
| Rules.WaitingMonths | llm_doc_processor/core/rules.py:21-27 | no contract of its own: `months` for a duration string; `Rules.WaitingMonthsLeftmost` states its value |
| Rules.WaitingMonthsLeftmost | llm_doc_processor/core/rules.py:21-27 | `months` is 0 when the pattern matches nowhere; otherwise it is the value of the digit group of the leftmost match |
| Rules.DurationText | llm_doc_processor/core/rules.py:21-30 | no contract of its own: the text `re.search` sees, `slots.get("policy_duration", "")`; its `None` stands for the `TypeError` a non-string value raises at `rules.py:25`, caught at `rules.py:29-30`; `Rules.WaitingPeriodVerdict` states the verdicts |
| Rules.NoLowerMNoMonths | llm_doc_processor/core/rules.py:22-27 | the pattern is case-sensitive, so a duration without a lower-case "m" counts as 0 months |
| Rules.LeadingDigitMonths | llm_doc_processor/core/rules.py:25-27 | a single leading digit followed by a month unit gives that digit as the month count |
| Rules.MonthOldExamples | llm_doc_processor/core/rules.py:22-28 | the month count is 3 for "3-month-old" and 2 for "2-month-old" |
| Rules.NoMonthExamples | llm_doc_processor/core/rules.py:22-28 | the month count is 0 for "2 years" and for "3 Months", since the pattern is case-sensitive |
| Rules.WaitingCheck | llm_doc_processor/core/rules.py:18-46 | no contract of its own: rule 1's verdict; `Rules.WaitingPeriodVerdict` states it |
| Rules.AgeCheck | llm_doc_processor/core/rules.py:48-71 | no contract of its own: rule 2's verdict; `Rules.AgeLimitVerdict` states it |
| Rules.ProcedureCheck | llm_doc_processor/core/rules.py:73-82 | no contract of its own: rule 3's verdict or its `AttributeError`, or `TypeError` for bytes; `Rules.ProcedureVerdict` and `Rules.ApplyRulesErrors` state them |
| Rules.PayoutCheck | llm_doc_processor/core/rules.py:84-92 | no contract of its own: rule 4's verdict on the amount rules 1–3 leave; `Rules.PayoutVerdict` states it |
| Rules.Notes | llm_doc_processor/core/rules.py:34-90 | no contract of its own: the notes text of each (rule, result) event; `Scenarios.KneeSurgeryApproved` checks the two "passed" notes |
| Rules.Step | llm_doc_processor/core/rules.py:18-92 | a rule leaves the state alone or appends one event of its own that accounts for the whole change; it records only the verdicts that rule can give; only the procedure rule raises, and it raises exactly on a non-string procedure |
| Rules.Fold | llm_doc_processor/core/rules.py:14-92 | running the rules keeps the earlier trail as a prefix; the decision and amount are the replay of the added events, and the added events follow the order of the rules |
| Rules.TrailExtends | llm_doc_processor/core/rules.py:18-92 | the fold's invariant is kept when one more rule runs first |
| Rules.ApplyRules | llm_doc_processor/core/rules.py:14-101 | `overriden` holds exactly when the final decision differs from the proposed one; the final decision and amount are the replay of the trail over the proposal; the trail's rules are a subsequence of the battery; a missing decision key raises |
| Rules.ApplyRulesRun | llm_doc_processor/core/rules.py:14-101 | on well-formed input, the engine records the verdicts of checks 1–3 in order, then the payout check on the amount they leave |
| Rules.ApplyRulesErrors | llm_doc_processor/core/rules.py:15-75 | for integer, `null` or missing amounts, the engine raises exactly when the decision key is missing or the procedure is not a string, and the missing key is reported first |
| Rules.ReplayDecision | llm_doc_processor/core/rules.py:32-92 | replaying events keeps the decision or sets it to "rejected", and a rejection is never undone |
| Rules.DecisionProposedOrRejected | llm_doc_processor/core/rules.py:15-100 | the final decision is the proposed one or "rejected"; a proposed rejection stays; an override is always a rejection |
| Rules.SubsequenceElements | llm_doc_processor/core/rules.py:14-92 | every rule in a subsequence of the battery comes from the battery |
| Rules.SubsequenceKeepsOrder | llm_doc_processor/core/rules.py:14-92 | a subsequence of the battery lists its rules in battery order |
| Rules.TrailOrdered | llm_doc_processor/core/rules.py:14-92 | the trail has at most four events, ordered waiting_period, age_limit, procedure_exclusion, max_payout_limit, with each rule at most once |
| Rules.TrailOrder | llm_doc_processor/core/rules.py:14-92 | a trail whose rules are a subsequence of a strictly ranked battery is no longer than the battery and strictly increasing in rank |
| Rules.RecordVerdict | llm_doc_processor/core/rules.py:32-46 | recording a verdict sets that rule's verdict and leaves every other rule's verdict alone |
| Rules.RecordFailed | llm_doc_processor/core/rules.py:32-82 | the trail contains a failure after recording exactly when it did before or the new verdict is a failure |
| Rules.RunVerdicts | llm_doc_processor/core/rules.py:18-92 | each rule of a run records exactly its own verdict; the payout verdict depends on the amount left after rules 1–3 |
| Rules.FirstThreeValues | llm_doc_processor/core/rules.py:32-82 | after rules 1–3, any failure has set "rejected" with amount 0; otherwise the proposal is unchanged |
| Rules.RunValues | llm_doc_processor/core/rules.py:32-92 | the result of a run in closed form: a failure gives "rejected" with 0; otherwise a truthy amount above 100000 is clamped to 100000 and everything else is kept |
| Rules.RunFailed | llm_doc_processor/core/rules.py:32-82 | the trail contains a failure exactly when one of the first three verdicts is one |
| Rules.WaitingPeriodVerdict | llm_doc_processor/core/rules.py:18-46 | a missing duration records `failed`; a string duration passes exactly when it holds at least 3 months; any other value records nothing |
| Rules.AgeLimitVerdict | llm_doc_processor/core/rules.py:48-71 | no age records nothing; an age that `int()` rejects records `unknown`; otherwise the rule passes exactly when the age is at most 80 |
| Rules.ProcedureVerdict | llm_doc_processor/core/rules.py:73-82 | the rule records `failed` exactly when the lower-cased procedure contains "cosmetic"; otherwise it records nothing, and never `passed` |
| Rules.FailureRejects | llm_doc_processor/core/rules.py:32-82 | the trail holds a failure exactly when one of rules 1–3 failed, and a failure rejects the claim with amount 0 |
| Rules.PayoutVerdict | llm_doc_processor/core/rules.py:84-92 | a `capped` event is recorded exactly when no rule failed and the proposed amount is truthy and above 100000; otherwise rule 4 records nothing |
| Rules.Truthy | llm_doc_processor/core/rules.py:86 | no contract of its own: Python's truth value of the amount, false for `None` and 0; `Rules.PayoutVerdict` states the cap it gates |
| Rules.ProposalSurvives | llm_doc_processor/core/rules.py:15-92 | without a failure the proposed decision stands, and the amount is the proposal, or 100000 when rule 4 capped it |
| Rules.RunOutcome | llm_doc_processor/core/rules.py:32-92 | for any three verdicts of rules 1–3 other than `capped`: failure iff one failed, rejection with 0 after a failure, capping iff no failure and a truthy amount above 100000, the proposal kept otherwise |
| Rules.ApplyRulesVerdicts | llm_doc_processor/core/rules.py:14-101 | on well-formed input the result is the run of three verdicts none of which is `capped`, with `overriden` meaning the final decision differs from the proposal |
| Rules.NoMonthsRejected | llm_doc_processor/core/rules.py:21-40 | a duration string without a lower-case "m" fails the waiting period and rejects with amount 0 |
| Rules.PayoutBound | llm_doc_processor/core/rules.py:84-92 | the final amount is `None` or at most 100000 |
| Rules.QuietRun | llm_doc_processor/core/rules.py:32-92 | a run with no failure and no cap keeps the proposal |
| Rules.NothingElseChanges | llm_doc_processor/core/rules.py:14-101 | with no failure and an amount within the cap, the proposal comes out unchanged and not overridden |
| Rules.AgeInert | llm_doc_processor/core/rules.py:48-71 | an age that passes or cannot be parsed adds only its own event: every other verdict, and the outcome, equal those for the same claim without an age |
| Rules.MonthParseUnit | llm_doc_processor/core/rules.py:25 | every match of the month pattern has its unit start with "m" |
| Intake.AgeUnitsUnambiguous | llm_doc_processor/core/intake.py:9 | no two units of the age pattern can both match, followed by a word boundary, at one position; every unit starts with a letter |
| Intake.GenderWordsUnambiguous | llm_doc_processor/core/intake.py:10 | no two gender words can both match, followed by a word boundary, at one position |
| Intake.ProcedureWordsUnambiguous | llm_doc_processor/core/intake.py:11 | no two procedure keywords can both match at one position |
| Intake.DurationUnitsUnambiguous | llm_doc_processor/core/intake.py:13 | no two duration units (with or without the optional "s") can both match, followed by a word boundary, at one position |
| Intake.DurationUnitsLetterInitial | llm_doc_processor/core/intake.py:13 | every duration unit starts with a letter |
| Intake.WordParseStartsWithLetter | llm_doc_processor/core/intake.py:9-13 | a unit match starts with a letter |
| Intake.SepThenWordParse | llm_doc_processor/core/intake.py:9-13 | `[- ]?` followed by a unit alternation matches up to `j` exactly when an optional separator and a unit read up to `j` |
| Intake.SepThenWord | llm_doc_processor/core/intake.py:9-13 | `[- ]?` followed by a unit alternation ends a match at or after its start and within the text; `Intake.SepThenWordParse` states exactly where |
| Intake.AgeUnitParse | llm_doc_processor/core/intake.py:9 | the separator and unit of the age pattern match up to `j` exactly as the declarative reading does |
| Intake.DurationUnitParse | llm_doc_processor/core/intake.py:13 | the separator and unit of the duration pattern match up to `j` exactly as the declarative reading does |
| Intake.DurationUnitLetter | llm_doc_processor/core/intake.py:13 | a duration unit starts with a letter |
| Intake.AgeAt | llm_doc_processor/core/intake.py:9 | a match at `i` spans the two digits at `i`; `Intake.AgeAtParse` states exactly where it matches |
| Intake.AgeAtParse | llm_doc_processor/core/intake.py:9 | the age matcher ends at `j` exactly when `\b`, two digits, an optional separator and an age unit with `\b` read up to `j` |
| Intake.AgeAtSound | llm_doc_processor/core/intake.py:9 | where the age matcher succeeds there is a reading with the unit starting right after the two digits or after one separator |
| Intake.AgeAtComplete | llm_doc_processor/core/intake.py:9 | every reading of the age pattern is found by the matcher |
| Intake.AgeSlot | llm_doc_processor/core/intake.py:24-25 | the age slot is an integer between 0 and 99 |
| Intake.AgeSlotLeftmost | llm_doc_processor/core/intake.py:22-25 | there is no age slot exactly when the age pattern matches nowhere; otherwise the slot is the value of the two digits of the leftmost match |
| Intake.AgeSearchStops | llm_doc_processor/core/intake.py:22-25 | the age search stops at the leftmost match and yields its two-digit value |
| Intake.GenderAt | llm_doc_processor/core/intake.py:10 | a match at `i` ends within the text; `Intake.GenderAtParse` states exactly where it matches |
| Intake.GenderAtParse | llm_doc_processor/core/intake.py:10 | the gender matcher ends at `j` exactly when a gender word lies between word boundaries, in some casing |
| Intake.GenderSlot | llm_doc_processor/core/intake.py:28-29 | the gender slot is a gender word in some casing |
| Intake.GenderSlotLeftmost | llm_doc_processor/core/intake.py:22-29 | there is no gender slot exactly when no gender word matches; otherwise the slot is the text of the leftmost match |
| Intake.ProcedureAt | llm_doc_processor/core/intake.py:11 | a match at `i` ends within the text; `Intake.ProcedureAtParse` states exactly where it matches |
| Intake.ProcedureAtParse | llm_doc_processor/core/intake.py:11 | the procedure matcher ends at `j` exactly when a keyword lies there in some casing |
| Intake.ProcedureSlot | llm_doc_processor/core/intake.py:28-29 | the procedure slot is a keyword in some casing |
| Intake.ProcedureSlotLeftmost | llm_doc_processor/core/intake.py:22-29 | there is no procedure slot exactly when no keyword occurs; otherwise the slot is the leftmost keyword as written |
| Intake.PlaceEndUnique | llm_doc_processor/core/intake.py:12 | a maximal run of letters and spaces ends where the greedy scan ends |
| Intake.PlaceEnd | llm_doc_processor/core/intake.py:12 | the greedy `[A-Za-z\s]+`: every character from the start to the end is a letter or whitespace, and the character at the end, if any, is not |
| Intake.LocationAt | llm_doc_processor/core/intake.py:12 | a match at `i` holds "in " and at least one place character; `Intake.LocationAtParse` states exactly where it matches |
| Intake.LocationAtParse | llm_doc_processor/core/intake.py:12 | the location matcher ends at `j` exactly when "in " in some casing is followed by a maximal, non-empty run of letters and spaces ending at `j` |
| Intake.LocationSlot | llm_doc_processor/core/intake.py:28-29 | the location slot is a non-empty string |
| Intake.LocationSlotLeftmost | llm_doc_processor/core/intake.py:22-29 | there is no regex location exactly when "in " followed by a place character occurs nowhere; otherwise the location is the run after the leftmost "in " |
| Intake.DurationAt | llm_doc_processor/core/intake.py:13 | a match at `i` starts with a digit and is non-empty; `Intake.DurationAtParse` states exactly where it matches |
| Intake.DurationAtParse | llm_doc_processor/core/intake.py:13 | the duration matcher ends at `j` exactly when digits, an optional separator and a unit with `\b` read up to `j` |
| Intake.DurationAtSound | llm_doc_processor/core/intake.py:13 | each match of the duration matcher comes with its digit group and unit |
| Intake.DurationAtComplete | llm_doc_processor/core/intake.py:13 | every reading of the duration pattern is found by the matcher |
| Intake.DurationSlot | llm_doc_processor/core/intake.py:26-27 | the duration slot is a string that starts with a digit |
| Intake.DurationSlotLeftmost | llm_doc_processor/core/intake.py:22-27 | there is no duration slot exactly when the pattern matches nowhere; otherwise the slot is the whole leftmost match |
| Intake.GpeFallback | llm_doc_processor/core/intake.py:33-36 | with no GPE entity the location is unchanged; otherwise it is the text of the last GPE entity |
| Intake.RegexSlot | llm_doc_processor/core/intake.py:21-29 | no contract of its own: the value the loop stores for one pattern; `Intake.ExtractedFrom` states that each key other than location holds it exactly when it exists |
| Intake.ExtractSlots | llm_doc_processor/core/intake.py:16-39 | only the five slot names occur; each slot other than location is present exactly when its pattern matches, with that pattern's value; the regex location wins; without it, location is present exactly when some GPE entity exists, with the last one's text |
| Intake.ExtractedSlotShapes | llm_doc_processor/core/intake.py:8-29 | age is an integer in 0..99; gender and procedure are words of their lists in some casing; location is a string; duration is a string that starts with a digit |
| Intake.ExtractedFrom | llm_doc_processor/core/intake.py:22-29 | every slot other than location is present exactly when its pattern matched, holding the matched value |
| Intake.KeywordsNotCosmetic | llm_doc_processor/core/intake.py:11 | no procedure keyword contains "cosmetic" |
| Assemble.TraceOf | llm_doc_processor/core/assemble.py:8 | a missing trace key stores `[]`, an explicit `null` stores `None`, and a present trace is stored as is |
| Assemble.BuildFinalResponse | llm_doc_processor/core/assemble.py:1-14 | the stored decision and amount are the model's, with `None` for a missing or `null` key; the stored trace follows `TraceOf` |
| Assemble.ViewsRoundTrip | llm_doc_processor/main.py:50-66 | the summaries, rules and chain-of-thought views read back exactly what was stored |
| Assemble.SummariesView | llm_doc_processor/main.py:50-53 | no contract of its own: the summaries entry; `Assemble.ViewsRoundTrip` states it returns the stored summaries |
| Assemble.ChainOfThoughtView | llm_doc_processor/main.py:55-61 | no contract of its own: the trace and `llm_decision` entries; `Assemble.ViewsRoundTrip` states what they read back |
| Assemble.RulesView | llm_doc_processor/main.py:63-66 | no contract of its own: the rules entry; `Assemble.ViewsRoundTrip` states it returns the stored rules result |
| Assemble.DecisionViewIgnoresTrace | llm_doc_processor/core/assemble.py:8-12 | the `llm_decision` entry depends only on the decision and amount keys |
| Assemble.UnparsedReplyStored | llm_doc_processor/core/assemble.py:8-12 | a reply that is not JSON is stored with the raw text as its trace, decision "unknown" and no amount |
| Pipeline.ExtractedWellFormed | llm_doc_processor/core/rules.py:15-75 | on extracted slots the engine can raise only for a missing decision key |
| Pipeline.ExtractedVerdicts | llm_doc_processor/core/rules.py:18-82 | on extracted slots the waiting-period rule always records a verdict, the age rule never records `unknown`, and the procedure rule never fires |
| Pipeline.NoDurationRejected | llm_doc_processor/core/rules.py:21-40 | a query without a duration phrase is rejected with amount 0 |
| Pipeline.DurationWithoutMonthsRejected | llm_doc_processor/core/rules.py:21-40 | a query whose duration phrase has no lower-case "m" is rejected with amount 0 |
| Pipeline.ProcessQuery | llm_doc_processor/main.py:37-46 | for integer, `null` or missing amounts, `process_query` yields a stored record exactly when the model's reply has a decision key; otherwise it raises the missing-key error |
| Pipeline.StoredRecordConsistent | llm_doc_processor/main.py:38-45 | the stored rules were computed from the stored slots; they are overridden exactly when their decision differs from the stored model decision, which they can only move to "rejected"; the amount stays within the cap |
| Pipeline.UnparsedReplyNotApproved | llm_doc_processor/core/llm.py:103-107 | a reply that is not JSON is stored with its raw text as the trace and ends "unknown" with no amount, or "rejected" with 0 — never approved |
| Scenarios.KneeWaiting | llm_doc_processor/core/rules.py:21-28 | "3-month-old" passes the waiting period |
| Scenarios.KneeProcedure | llm_doc_processor/core/rules.py:75 | "knee surgery" is not excluded as cosmetic |
| Scenarios.KneeClaimChecks | llm_doc_processor/core/rules.py:18-82 | for the knee claim, the waiting period and age both pass and the procedure rule records nothing |
| Scenarios.KneeSurgeryApproved | llm_doc_processor/core/rules.py:14-101 | approving 50000 for the knee claim records two passing events and stays "approved" with 50000, not overridden |
| Scenarios.SampleQueryDuration | llm_doc_processor/app/test_pipeline.py:7-8 | the duration slot of the sample query is "46-year" |
| Scenarios.SampleQueryRejected | llm_doc_processor/core/rules.py:21-40 | the sample query fails the waiting period and is rejected with amount 0, whatever the model proposes |

## Left out

- spaCy's pipeline (`nlp(text)`, `doc.ents`) is not modelled. Its entities are an input list of (label, text) pairs.
- Document ingestion, embeddings, the FAISS index and retrieval (`ingest.py`, `retrieval.py`) are external services. Retrieved clauses and summaries are opaque inputs.
- The model calls in `llm.py` are left out: prompts, the Gemini API and JSON parsing. The parsed reply is an input, and it is a JSON object. Only the fallback record for a reply that is not JSON is modelled.
- Saving and loading records as JSON files (`utils.py`), the FastAPI routing, and `/ingest_document` are I/O. The query id is left out. The stored record is the value that `process_query` would save.
- Amounts other than integers are left out: an amount is an integer, `null` or missing. Floating point is not modelled, and neither is the `TypeError` that `final_amount > 100000` (`rules.py:86`) raises for a truthy amount that is not a number, such as the string "50000".
- Rules.ApplyRulesErrors: says the engine raises only on a missing decision key or a non-string procedure. That holds for the modelled amounts only, because of the `TypeError` path at `rules.py:86` above.
- Pipeline.ProcessQuery: fails only on a missing decision key, for the same reason; a reply with a truthy non-numeric amount would raise at `rules.py:86` and store nothing.
- Pipeline.ProcessQuery: assumes the parsed reply is a JSON object. `json.loads` at `llm.py:104` can also return a list, a string, a number or `null`; then `llm_decision["decision"]` at `rules.py:15` raises `TypeError` for each of them, and nothing is stored.
- Rules.ApplyRulesErrors: takes a decision record, so it does not cover a reply that is not a JSON object; for such a reply `apply_rules` raises `TypeError` at `rules.py:15`.
- Python's limit on the digits `int()` accepts from a string is not modelled. CPython 3.11 and later, and the security releases of 3.7 to 3.10, raise `ValueError` for a decimal string of more than 4300 digits by default. The limit depends on the interpreter version and on `sys.set_int_max_str_digits` or `PYTHONINTMAXSTRDIGITS`.
- Rules.WaitingPeriodVerdict: counts a digit group of any length. Under the limit, a group of more than 4300 digits raises at `rules.py:27`; the error is caught at `rules.py:29-30` and rule 1 records nothing, where the model records `passed`.
- Rules.AgeLimitVerdict: under the limit, an age string of more than 4300 digits makes `int()` raise at `rules.py:51`, and rule 2 records `unknown`, where the model records `failed`. The other differences of `Records.ParseInt` below carry over to rule 2: for the age string "4_6", or one of non-ASCII digits, `int()` succeeds and the rule passes or fails on that value, where the model records `unknown`.
- Pipeline.ExtractedVerdicts: its claim that rule 1 always records a verdict on extracted slots fails under the limit for a query whose duration has more than 4300 digits.
- Non-ASCII text is left out. Case folding and the character classes `\d`, `\w`, `\s` and `[A-Za-z]` are ASCII-only. Python also folds some non-ASCII characters onto ASCII letters under IGNORECASE, and its `\s` and the stripping in `int()` also take non-ASCII whitespace such as `\x85` and `\xa0`. Within ASCII, `\s` takes space, `\t` to `\r`, and `\x1c` to `\x1f`, while `int()` strips only space and `\t` to `\r`; the model keeps both (`Text.IsSpace`, `Records.IntSpace`).
- Records.ParseInt: reads a digit string of any length, where `int()` under the digit limit above raises for more than 4300 digits. Its contract covers only strings of ASCII digits. The definition also handles surrounding whitespace and a sign, but Python's `int()` also accepts underscores between digits and non-ASCII digits, which the model does not.
- Slot values that are neither integers nor strings are `Other`, carrying what `int()` makes of them. The rules only use that result and the fact that they are not strings.

=== FILE: assemble.dfy ===
/** The response record `build_final_response` assembles from every stage of
    a query, and the views the service offers on a stored response. */
module Assemble {
  import opened Wrappers
  import opened Records

  /** The `llm_decision` entry: the model's own decision and amount, before any rule. */
  datatype DecisionView = DecisionView(decision: Option<string>, amount: Option<int>)

  /** The response dictionary.  Retrieved clauses, summaries and the rules
      outcome are carried without being inspected, so their types are left open. */
  datatype FinalResponse<C, S, O> = FinalResponse(
    query: string,
    domain: string,
    slots: Slots,
    retrievedClauses: seq<C>,
    summaries: seq<S>,
    reasoningTrace: Option<seq<string>>,
    llmDecision: DecisionView,
    rules: O)

  /** `decision.get("reasoning_trace", [])`: a missing key gives the empty
      list, an explicit `null` gives `None`. */
  function TraceOf(d: LlmDecision): (r: Option<seq<string>>)
    ensures d.reasoningTrace.Absent? ==> r == Some([])
    ensures d.reasoningTrace.Null? ==> r == None
    ensures d.reasoningTrace.Present? ==> r == Some(d.reasoningTrace.value)
  {
    match d.reasoningTrace
    case Absent => Some([])
    case Null => None
    case Present(t) => Some(t)
  }

  /** `build_final_response(query, domain, slots, retrieved, summaries, decision, rules)`. */
  function BuildFinalResponse<C, S, O>(query: string, domain: string, slots: Slots, retrieved: seq<C>,
                                       summaries: seq<S>, decision: LlmDecision, rules: O): (r: FinalResponse<C, S, O>)
    ensures r.llmDecision.decision == decision.decision.Get() && r.llmDecision.amount == decision.amount.Get()
    ensures r.reasoningTrace == TraceOf(decision)
  {
    FinalResponse(query, domain, slots, retrieved, summaries, TraceOf(decision),
      DecisionView(decision.decision.Get(), decision.amount.Get()), rules)
  }

  /** The `get_summaries` view of a stored response. */
  function SummariesView<C, S, O>(r: FinalResponse<C, S, O>): seq<S> {
    r.summaries
  }

  /** The `get_chain_of_thought` view: the trace and the model's decision. */
  function ChainOfThoughtView<C, S, O>(r: FinalResponse<C, S, O>): (Option<seq<string>>, DecisionView) {
    (r.reasoningTrace, r.llmDecision)
  }

  /** The `get_rules` view. */
  function RulesView<C, S, O>(r: FinalResponse<C, S, O>): O {
    r.rules
  }

  /** Every view returns what was put in: the inputs come back unchanged, and
      the chain-of-thought view reads back the decision and amount the model
      proposed, with `None` for a missing or `null` key. */
  lemma ViewsRoundTrip<C, S, O>(query: string, domain: string, slots: Slots, retrieved: seq<C>,
                                summaries: seq<S>, decision: LlmDecision, rules: O)
    ensures var r := BuildFinalResponse(query, domain, slots, retrieved, summaries, decision, rules);
      && r.query == query && r.domain == domain && r.slots == slots && r.retrievedClauses == retrieved
      && SummariesView(r) == summaries && RulesView(r) == rules
      && ChainOfThoughtView(r).1 == DecisionView(decision.decision.Get(), decision.amount.Get())
      && (decision.reasoningTrace.Present? ==> ChainOfThoughtView(r).0 == Some(decision.reasoningTrace.value))
  {
  }

  /** The `llm_decision` entry depends on the decision and amount keys only:
      two records that agree on those give the same entry, whatever their
      traces, and records that also agree on the trace give the same response. */
  lemma DecisionViewIgnoresTrace<C, S, O>(query: string, domain: string, slots: Slots, retrieved: seq<C>,
                                          summaries: seq<S>, d1: LlmDecision, d2: LlmDecision, rules: O)
    requires d1.decision.Get() == d2.decision.Get() && d1.amount.Get() == d2.amount.Get()
    ensures BuildFinalResponse(query, domain, slots, retrieved, summaries, d1, rules).llmDecision
         == BuildFinalResponse(query, domain, slots, retrieved, summaries, d2, rules).llmDecision
    ensures d1.reasoningTrace == d2.reasoningTrace ==>
      BuildFinalResponse(query, domain, slots, retrieved, summaries, d1, rules)
      == BuildFinalResponse(query, domain, slots, retrieved, summaries, d2, rules)
  {
  }

  /** An unparseable reply is stored with the raw text as its only trace
      step, decision "unknown" and no amount. */
  lemma UnparsedReplyStored<C, S, O>(query: string, domain: string, slots: Slots, retrieved: seq<C>,
                                     summaries: seq<S>, raw: string, rules: O)
    ensures var r := BuildFinalResponse(query, domain, slots, retrieved, summaries, UnparsedReply(raw), rules);
      r.reasoningTrace == Some([raw]) && r.llmDecision == DecisionView(Some("unknown"), None)
  {
  }
}

=== FILE: intake.dfy ===
/** The regex half of `extract_slots`: five case-insensitive patterns, each
    searched for its leftmost match in the query, and the fallback that takes
    the location from named entities when the pattern finds none.  The
    entities are an input: a sequence of (label, text) pairs. */
module Intake {
  import opened Wrappers
  import opened Text
  import opened Records

  /** A named entity as the tagger reports it: its label (`label_`) and text. */
  datatype Entity = Entity(kind: string, text: string)

  /** The only keys the extractor ever writes. */
  const SlotNames: set<string> := {"age", "gender", "procedure", "location", "policy_duration"}

  /** `(year[- ]old|yrs?|y/o)`, alternatives in the order backtracking tries them. */
  const AgeUnits: seq<string> := ["year-old", "year old", "yrs", "yr", "y/o"]

  /** `(male|female|m|f)`. */
  const GenderWords: seq<string> := ["male", "female", "m", "f"]

  /** The procedure keywords; group 1 of the procedure pattern is one of them. */
  const ProcedureWords: seq<string> :=
    ["knee", "hip", "bypass", "cataract", "surgery", "replacement", "fracture", "angioplasty"]

  /** `(month|year|yr|mo)[s]?`, each unit with its "s" first, as backtracking tries them. */
  const DurationUnits: seq<string> := ["months", "month", "years", "year", "yrs", "yr", "mos", "mo"]

  /** Every word starts with a letter, so a unit never starts at a digit or a separator. */
  predicate LetterInitial(ws: seq<string>) {
    forall x :: 0 <= x < |ws| ==> |ws[x]| > 0 && IsLetter(ws[x][0])
  }

  lemma AgeUnitsUnambiguous()
    ensures Unambiguous(AgeUnits, true) && LetterInitial(AgeUnits)
  {
  }

  lemma GenderWordsUnambiguous()
    ensures Unambiguous(GenderWords, true)
  {
  }

  lemma ProcedureWordsUnambiguous()
    ensures Unambiguous(ProcedureWords, false)
  {
  }

  lemma DurationUnitsUnambiguous()
    ensures Unambiguous(DurationUnits, true)
  {
  }

  lemma DurationUnitsLetterInitial()
    ensures LetterInitial(DurationUnits)
  {
  }

  /** A word of a letter-initial list starts with a letter. */
  lemma WordParseStartsWithLetter(s: string, u: nat, j: nat, ws: seq<string>, b: bool)
    requires LetterInitial(ws) && WordParse(s, u, j, ws, b)
    ensures u < j && IsLetter(s[u])
  {
    var x :| 0 <= x < |ws| && ws[x] == LowerStr(s[u..j]);
    assert LowerStr(s[u..j])[0] == Lower(s[u]);
    LowerKeepsClass(s[u]);
  }

  /** `[- ]?` followed by an alternation: the separator is tried first. */
  function SepThenWord(s: string, d: nat, ws: seq<string>): (r: Option<nat>)
    ensures r.Some? ==> d <= r.value <= |s|
  {
    Else(if d < |s| && IsSep(s[d]) then WordEnd(s, d + 1, ws, true) else None, WordEnd(s, d, ws, true))
  }

  /** The separator-then-word matcher ends exactly where some reading with
      or without the separator does. */
  lemma SepThenWordParse(s: string, d: nat, ws: seq<string>, j: nat)
    requires Unambiguous(ws, true) && LetterInitial(ws)
    ensures SepThenWord(s, d, ws) == Some(j) <==> exists u: nat :: SepOpt(s, d, u) && WordParse(s, u, j, ws, true)
  {
    WordEndParse(s, d, ws, true, j);
    WordEndParse(s, d + 1, ws, true, j);
    if SepThenWord(s, d, ws) == Some(j) {
      if d < |s| && IsSep(s[d]) && WordEnd(s, d + 1, ws, true).Some? {
        assert SepOpt(s, d, d + 1);
      } else {
        assert SepOpt(s, d, d);
      }
    }
    if exists u: nat :: SepOpt(s, d, u) && WordParse(s, u, j, ws, true) {
      var u: nat :| SepOpt(s, d, u) && WordParse(s, u, j, ws, true);
      WordParseStartsWithLetter(s, u, j, ws, true);
    }
  }

  /** The age unit after the digits, read either way. */
  lemma AgeUnitParse(s: string, d: nat, j: nat)
    ensures SepThenWord(s, d, AgeUnits) == Some(j) <==> exists u: nat :: SepOpt(s, d, u) && WordParse(s, u, j, AgeUnits, true)
  {
    AgeUnitsUnambiguous();
    SepThenWordParse(s, d, AgeUnits, j);
  }

  /** The duration unit after the digits, read either way. */
  lemma DurationUnitParse(s: string, d: nat, j: nat)
    ensures SepThenWord(s, d, DurationUnits) == Some(j) <==> exists u: nat :: SepOpt(s, d, u) && WordParse(s, u, j, DurationUnits, true)
  {
    DurationUnitsUnambiguous();
    DurationUnitsLetterInitial();
    SepThenWordParse(s, d, DurationUnits, j);
  }

  lemma DurationUnitLetter(s: string, u: nat, j: nat)
    requires WordParse(s, u, j, DurationUnits, true)
    ensures u < j && IsLetter(s[u])
  {
    DurationUnitsLetterInitial();
    WordParseStartsWithLetter(s, u, j, DurationUnits, true);
  }

  // ---------------------------------------------------------------------------
  // age: \b(\d{2})[- ]?(year[- ]old|yrs?|y/o)\b

  function AgeAt(s: string, i: nat): (r: Option<nat>)
    ensures r.Some? ==> i + 2 <= r.value <= |s| && IsDigit(s[i]) && IsDigit(s[i + 1])
  {
    if Boundary(s, i) && i + 2 <= |s| && IsDigit(s[i]) && IsDigit(s[i + 1]) then SepThenWord(s, i + 2, AgeUnits)
    else None
  }

  /** Reference reading: a boundary, two digits, an optional separator, a unit
      in any case, and a boundary. */
  ghost predicate AgeParse(s: string, i: nat, u: nat, j: nat) {
    Boundary(s, i) && i + 2 <= |s| && DigitSpan(s, i, i + 2) && SepOpt(s, i + 2, u) && WordParse(s, u, j, AgeUnits, true)
  }

  lemma AgeAtParse(s: string, i: nat, j: nat)
    ensures AgeAt(s, i) == Some(j) <==> exists u: nat :: AgeParse(s, i, u, j)
  {
    if exists u: nat :: AgeParse(s, i, u, j) {
      var u: nat :| AgeParse(s, i, u, j);
      AgeAtComplete(s, i, u, j);
    }
    if AgeAt(s, i) == Some(j) {
      var _ := AgeAtSound(s, i, j);
    }
  }

  lemma AgeAtSound(s: string, i: nat, j: nat) returns (u: nat)
    requires AgeAt(s, i) == Some(j)
    ensures AgeParse(s, i, u, j)
  {
    assert Boundary(s, i) && i + 2 <= |s|;
    assert DigitSpan(s, i, i + 2) by {
      assert IsDigit(s[i]) && IsDigit(s[i + 1]);
    }
    AgeUnitsUnambiguous();
    u := SepThenWordSound(s, i + 2, AgeUnits, j);
  }

  /** The separator-then-word matcher's end, with the start of the word it read. */
  lemma SepThenWordSound(s: string, d: nat, ws: seq<string>, j: nat) returns (u: nat)
    requires Unambiguous(ws, true) && SepThenWord(s, d, ws) == Some(j)
    ensures SepOpt(s, d, u) && WordParse(s, u, j, ws, true)
  {
    if d < |s| && IsSep(s[d]) && WordEnd(s, d + 1, ws, true).Some? {
      u := d + 1;
    } else {
      u := d;
    }
    WordEndParse(s, u, ws, true, j);
  }

  lemma AgeAtComplete(s: string, i: nat, u: nat, j: nat)
    requires AgeParse(s, i, u, j)
    ensures AgeAt(s, i) == Some(j)
  {
    assert IsDigit(s[i]) && IsDigit(s[i + 1]);
    AgeUnitParse(s, i + 2, j);
  }

  /** `int(match.group(1))` of the leftmost age match. */
  function AgeSlot(text: string): (r: Option<SlotValue>)
    ensures r.Some? ==> r.value.Int? && 0 <= r.value.i <= 99
  {
    match Search(text, AgeAt, 0)
    case None => None
    case Some((i, e)) =>
      AgeDigitsFound(text, i, e);
      Some(Int(DecimalValue(text[i..i + 2])))
  }

  lemma AgeDigitsFound(text: string, i: nat, e: nat)
    requires AgeAt(text, i) == Some(e)
    ensures i + 2 <= |text| && 0 <= DecimalValue(text[i..i + 2]) <= 99
  {
    TwoDigitValue(text, i);
  }

  /** No age reading starts before `i`. */
  ghost predicate NoAgeBefore(s: string, i: nat) {
    forall i': nat, u': nat, j': nat :: i' < i ==> !AgeParse(s, i', u', j')
  }

  /** The age slot is set iff some reading exists, and its value is the
      number the two digits of the leftmost reading spell. */
  lemma AgeSlotLeftmost(text: string)
    ensures AgeSlot(text).None? <==> forall i: nat, u: nat, j: nat :: !AgeParse(text, i, u, j)
    ensures forall i: nat, u: nat, j: nat :: AgeParse(text, i, u, j) && NoAgeBefore(text, i) ==>
      AgeSlot(text) == Some(Int(DecimalValue(text[i..i + 2])))
  {
    match Search(text, AgeAt, 0)
    case None =>
      forall i: nat, u: nat, j: nat ensures !AgeParse(text, i, u, j) {
        AgeAtParse(text, i, j);
      }
    case Some((k, e)) =>
      AgeAtParse(text, k, e);
      forall i: nat, u: nat, j: nat | AgeParse(text, i, u, j) && NoAgeBefore(text, i)
        ensures AgeSlot(text) == Some(Int(DecimalValue(text[i..i + 2])))
      {
        AgeSearchStops(text, k, e, i, u, j);
      }
  }

  /** The search for an age stops at the first reading. */
  lemma AgeSearchStops(text: string, k: nat, e: nat, i: nat, u: nat, j: nat)
    requires Search(text, AgeAt, 0) == Some((k, e))
    requires AgeParse(text, i, u, j) && NoAgeBefore(text, i)
    ensures i == k
    ensures AgeSlot(text) == Some(Int(DecimalValue(text[i..i + 2])))
  {
    AgeAtComplete(text, i, u, j);
    var u' := AgeAtSound(text, k, e);
    assert k < i ==> !AgeParse(text, k, u', e);
    AgeSlotDigits(text, k, e);
  }

  lemma AgeSlotDigits(text: string, k: nat, e: nat)
    requires Search(text, AgeAt, 0) == Some((k, e)) && k + 2 <= |text|
    ensures AgeSlot(text) == Some(Int(DecimalValue(text[k..k + 2])))
  {
  }

  // ---------------------------------------------------------------------------
  // gender: \b(male|female|m|f)\b

  function GenderAt(s: string, i: nat): (r: Option<nat>)
    ensures r.Some? ==> i <= r.value <= |s|
  {
    if Boundary(s, i) then WordEnd(s, i, GenderWords, true) else None
  }

  ghost predicate GenderParse(s: string, i: nat, j: nat) {
    Boundary(s, i) && WordParse(s, i, j, GenderWords, true)
  }

  lemma GenderAtParse(s: string, i: nat, j: nat)
    ensures GenderAt(s, i) == Some(j) <==> GenderParse(s, i, j)
  {
    GenderWordsUnambiguous();
    WordEndParse(s, i, GenderWords, true, j);
  }

  /** The matched word, in the query's own casing. */
  function GenderSlot(text: string): (r: Option<SlotValue>)
    ensures r.Some? ==> r.value.Str? && LowerStr(r.value.s) in GenderWords
  {
    match Search(text, GenderAt, 0)
    case None => None
    case Some((i, j)) =>
      GenderAtParse(text, i, j);
      Some(Str(text[i..j]))
  }

  ghost predicate NoGenderBefore(s: string, i: nat) {
    forall i': nat, j': nat :: i' < i ==> !GenderParse(s, i', j')
  }

  /** The gender slot is set iff some reading exists, and holds the text of
      the leftmost one. */
  lemma GenderSlotLeftmost(text: string)
    ensures GenderSlot(text).None? <==> forall i: nat, j: nat :: !GenderParse(text, i, j)
    ensures forall i: nat, j: nat :: GenderParse(text, i, j) && NoGenderBefore(text, i) ==>
      GenderSlot(text) == Some(Str(text[i..j]))
  {
    match Search(text, GenderAt, 0)
    case None =>
      forall i: nat, j: nat ensures !GenderParse(text, i, j) {
        GenderAtParse(text, i, j);
      }
    case Some((k, e)) =>
      GenderAtParse(text, k, e);
      forall i: nat, j: nat | GenderParse(text, i, j) && NoGenderBefore(text, i) ensures i == k && j == e {
        GenderAtParse(text, i, j);
      }
  }

  // ---------------------------------------------------------------------------
  // procedure: (knee|hip|...|angioplasty)[\w\s-]*, slot = group 1

  /** The trailing `[\w\s-]*` matches the empty string, so it decides neither
      whether nor where a match starts, nor group 1. */
  function ProcedureAt(s: string, i: nat): (r: Option<nat>)
    ensures r.Some? ==> i <= r.value <= |s|
  {
    WordEnd(s, i, ProcedureWords, false)
  }

  lemma ProcedureAtParse(s: string, i: nat, j: nat)
    ensures ProcedureAt(s, i) == Some(j) <==> WordParse(s, i, j, ProcedureWords, false)
  {
    ProcedureWordsUnambiguous();
    WordEndParse(s, i, ProcedureWords, false, j);
  }

  /** Group 1: the keyword, in the query's own casing. */
  function ProcedureSlot(text: string): (r: Option<SlotValue>)
    ensures r.Some? ==> r.value.Str? && LowerStr(r.value.s) in ProcedureWords
  {
    match Search(text, ProcedureAt, 0)
    case None => None
    case Some((i, j)) =>
      ProcedureAtParse(text, i, j);
      Some(Str(text[i..j]))
  }

  ghost predicate NoProcedureBefore(s: string, i: nat) {
    forall i': nat, j': nat :: i' < i ==> !WordParse(s, i', j', ProcedureWords, false)
  }

  /** The procedure slot is set iff a keyword occurs in any case, and holds
      the leftmost occurrence. */
  lemma ProcedureSlotLeftmost(text: string)
    ensures ProcedureSlot(text).None? <==> forall i: nat, j: nat :: !WordParse(text, i, j, ProcedureWords, false)
    ensures forall i: nat, j: nat :: WordParse(text, i, j, ProcedureWords, false) && NoProcedureBefore(text, i) ==>
      ProcedureSlot(text) == Some(Str(text[i..j]))
  {
    match Search(text, ProcedureAt, 0)
    case None =>
      forall i: nat, j: nat ensures !WordParse(text, i, j, ProcedureWords, false) {
        ProcedureAtParse(text, i, j);
      }
    case Some((k, e)) =>
      ProcedureAtParse(text, k, e);
      forall i: nat, j: nat | WordParse(text, i, j, ProcedureWords, false) && NoProcedureBefore(text, i)
        ensures i == k && j == e
      {
        ProcedureAtParse(text, i, j);
      }
  }

  // ---------------------------------------------------------------------------
  // location: in ([A-Za-z\s]+), slot = group 1

  /** `[A-Za-z\s]`. */
  predicate IsPlaceChar(c: char) { IsLetter(c) || IsSpace(c) }

  /** The end of the greedy run of place characters from `k`. */
  function PlaceEnd(s: string, k: nat): (e: nat)
    requires k <= |s|
    ensures k <= e <= |s| && forall m :: k <= m < e ==> IsPlaceChar(s[m])
    ensures e == |s| || !IsPlaceChar(s[e])
    decreases |s| - k
  {
    if k < |s| && IsPlaceChar(s[k]) then PlaceEnd(s, k + 1) else k
  }

  function LocationAt(s: string, i: nat): (r: Option<nat>)
    ensures r.Some? ==> i + 3 < r.value <= |s|
  {
    if LitCI(s, i, "in ") && i + 3 < |s| && IsPlaceChar(s[i + 3]) then Some(PlaceEnd(s, i + 3)) else None
  }

  /** Reference reading: "in " in any case, then a non-empty run of place
      characters that the greedy `+` extends as far as it goes. */
  ghost predicate LocationParse(s: string, i: nat, j: nat) {
    LitCI(s, i, "in ") && i + 3 < j <= |s| && (forall m :: i + 3 <= m < j ==> IsPlaceChar(s[m]))
    && (j == |s| || !IsPlaceChar(s[j]))
  }

  lemma {:induction false} PlaceEndUnique(s: string, k: nat, e: nat)
    requires k <= e <= |s| && (forall m :: k <= m < e ==> IsPlaceChar(s[m])) && (e == |s| || !IsPlaceChar(s[e]))
    ensures PlaceEnd(s, k) == e
    decreases e - k
  {
    if k < e {
      PlaceEndUnique(s, k + 1, e);
    }
  }

  lemma LocationAtParse(s: string, i: nat, j: nat)
    ensures LocationAt(s, i) == Some(j) <==> LocationParse(s, i, j)
  {
    if LocationParse(s, i, j) {
      PlaceEndUnique(s, i + 3, j);
    }
  }

  /** Group 1: the place text after "in ". */
  function LocationSlot(text: string): (r: Option<SlotValue>)
    ensures r.Some? ==> r.value.Str? && |r.value.s| > 0
  {
    match Search(text, LocationAt, 0)
    case None => None
    case Some((i, j)) => Some(Str(text[i + 3..j]))
  }

  ghost predicate NoLocationBefore(s: string, i: nat) {
    forall i': nat, j': nat :: i' < i ==> !LocationParse(s, i', j')
  }

  /** The location pattern matches iff some reading exists, and yields the
      place text of the leftmost one. */
  lemma LocationSlotLeftmost(text: string)
    ensures LocationSlot(text).None? <==> forall i: nat, j: nat :: !LocationParse(text, i, j)
    ensures forall i: nat, j: nat :: LocationParse(text, i, j) && NoLocationBefore(text, i) ==>
      LocationSlot(text) == Some(Str(text[i + 3..j]))
  {
    match Search(text, LocationAt, 0)
    case None =>
      forall i: nat, j: nat ensures !LocationParse(text, i, j) {
        LocationAtParse(text, i, j);
      }
    case Some((k, e)) =>
      LocationAtParse(text, k, e);
      forall i: nat, j: nat | LocationParse(text, i, j) && NoLocationBefore(text, i) ensures i == k && j == e {
        LocationAtParse(text, i, j);
      }
  }

  // ---------------------------------------------------------------------------
  // policy_duration: (\d+)[- ]?(month|year|yr|mo)[s]?\b, slot = the whole match

  function DurationAt(s: string, i: nat): (r: Option<nat>)
    ensures r.Some? ==> i < r.value <= |s| && IsDigit(s[i])
  {
    if i < |s| && IsDigit(s[i]) then SepThenWord(s, DigitsEnd(s, i), DurationUnits) else None
  }

  /** Reference reading: digits, an optional separator, a unit with an
      optional "s" in any case, and a boundary. */
  ghost predicate DurationParse(s: string, i: nat, d: nat, u: nat, j: nat) {
    i < d && DigitSpan(s, i, d) && SepOpt(s, d, u) && WordParse(s, u, j, DurationUnits, true)
  }

  lemma DurationAtParse(s: string, i: nat, j: nat)
    ensures DurationAt(s, i) == Some(j) <==> exists d: nat, u: nat :: DurationParse(s, i, d, u, j)
  {
    if DurationAt(s, i) == Some(j) {
      var d, u := DurationAtSound(s, i, j);
    }
    if exists d: nat, u: nat :: DurationParse(s, i, d, u, j) {
      var d: nat, u: nat :| DurationParse(s, i, d, u, j);
      DurationAtComplete(s, i, d, u, j);
    }
  }

  lemma DurationAtSound(s: string, i: nat, j: nat) returns (d: nat, u: nat)
    requires DurationAt(s, i) == Some(j)
    ensures DurationParse(s, i, d, u, j)
  {
    d := DigitsEnd(s, i);
    DurationUnitParse(s, d, j);
    u :| SepOpt(s, d, u) && WordParse(s, u, j, DurationUnits, true);
  }

  lemma DurationAtComplete(s: string, i: nat, d: nat, u: nat, j: nat)
    requires DurationParse(s, i, d, u, j)
    ensures DurationAt(s, i) == Some(j)
  {
    DurationUnitLetter(s, u, j);
    DigitsEndUnique(s, i, d);
    DurationUnitParse(s, d, j);
  }

  /** `match.group(0)`: the whole match, in the query's own casing. */
  function DurationSlot(text: string): (r: Option<SlotValue>)
    ensures r.Some? ==> r.value.Str? && |r.value.s| > 0 && IsDigit(r.value.s[0])
  {
    match Search(text, DurationAt, 0)
    case None => None
    case Some((i, j)) => Some(Str(text[i..j]))
  }

  ghost predicate NoDurationBefore(s: string, i: nat) {
    forall i': nat, d': nat, u': nat, j': nat :: i' < i ==> !DurationParse(s, i', d', u', j')
  }

  /** The duration slot is set iff some reading exists, and holds the whole
      text of the leftmost one. */
  lemma DurationSlotLeftmost(text: string)
    ensures DurationSlot(text).None? <==> forall i: nat, d: nat, u: nat, j: nat :: !DurationParse(text, i, d, u, j)
    ensures forall i: nat, d: nat, u: nat, j: nat :: DurationParse(text, i, d, u, j) && NoDurationBefore(text, i) ==>
      DurationSlot(text) == Some(Str(text[i..j]))
  {
    match Search(text, DurationAt, 0)
    case None =>
      forall i: nat, d: nat, u: nat, j: nat ensures !DurationParse(text, i, d, u, j) {
        DurationAtParse(text, i, j);
      }
    case Some((k, e)) =>
      DurationAtParse(text, k, e);
      forall i: nat, d: nat, u: nat, j: nat | DurationParse(text, i, d, u, j) && NoDurationBefore(text, i)
        ensures i == k && j == e
      {
        DurationAtParse(text, i, j);
      }
  }

  // ---------------------------------------------------------------------------
  // The slot map

  /** Entity `k` is a place (GPE) and no later entity is. */
  predicate LastGpeAt(ents: seq<Entity>, k: nat) {
    k < |ents| && ents[k].kind == "GPE" && forall k' :: k < k' < |ents| ==> ents[k'].kind != "GPE"
  }

  /** The loop over the entities: every GPE entity overwrites the location,
      so the last one wins, and without one the location is unchanged. */
  function GpeFallback(ents: seq<Entity>, loc: Option<string>): (r: Option<string>)
    ensures (forall k :: 0 <= k < |ents| ==> ents[k].kind != "GPE") ==> r == loc
    ensures forall k :: 0 <= k < |ents| && LastGpeAt(ents, k) ==> r == Some(ents[k].text)
    ensures r.None? ==> loc.None? && forall k :: 0 <= k < |ents| ==> ents[k].kind != "GPE"
    decreases |ents|
  {
    if ents == [] then loc
    else GpeFallback(ents[1..], if ents[0].kind == "GPE" then Some(ents[0].text) else loc)
  }

  /** What the pattern for slot `key` contributes, if it matches. */
  function RegexSlot(text: string, key: string): Option<SlotValue> {
    match key
    case "age" => AgeSlot(text)
    case "gender" => GenderSlot(text)
    case "procedure" => ProcedureSlot(text)
    case "location" => LocationSlot(text)
    case "policy_duration" => DurationSlot(text)
    case _ => None
  }

  /** `extract_slots(text)`, with the entities of `nlp(text)` given as `ents`:
      every pattern that matches sets its slot, and only when the location
      pattern finds nothing does the last GPE entity, if any, become the location. */
  function ExtractSlots(text: string, ents: seq<Entity>): (slots: Slots)
    ensures slots.Keys <= SlotNames
    ensures forall key :: key in SlotNames && key != "location" ==> (key in slots <==> RegexSlot(text, key).Some?)
    ensures forall key :: key in slots && key != "location" ==> RegexSlot(text, key) == Some(slots[key])
    ensures LocationSlot(text).Some? ==> "location" in slots && slots["location"] == LocationSlot(text).value
    ensures LocationSlot(text).None? ==>
      ("location" in slots <==> exists k :: 0 <= k < |ents| && ents[k].kind == "GPE")
    ensures LocationSlot(text).None? ==> forall k :: 0 <= k < |ents| && LastGpeAt(ents, k) ==>
      "location" in slots && slots["location"] == Str(ents[k].text)
  {
    var m := map key | key in SlotNames && RegexSlot(text, key).Some? :: RegexSlot(text, key).value;
    if "location" in m then m
    else match GpeFallback(ents, None)
      case Some(place) => m["location" := Str(place)]
      case None => m
  }

  /** What the extractor can hand to the rules: an `Int` age from two digits,
      string values elsewhere, a procedure that is one of the keywords in some
      casing, a gender word, and a duration that starts with a digit. */
  lemma ExtractedSlotShapes(text: string, ents: seq<Entity>)
    ensures var slots := ExtractSlots(text, ents);
      && ("age" in slots ==> slots["age"].Int? && 0 <= slots["age"].i <= 99)
      && ("gender" in slots ==> slots["gender"].Str? && LowerStr(slots["gender"].s) in GenderWords)
      && ("procedure" in slots ==> slots["procedure"].Str? && LowerStr(slots["procedure"].s) in ProcedureWords)
      && ("location" in slots ==> slots["location"].Str?)
      && ("policy_duration" in slots ==>
            slots["policy_duration"].Str? && |slots["policy_duration"].s| > 0 && IsDigit(slots["policy_duration"].s[0]))
  {
    ExtractedAge(text, ents);
    ExtractedGender(text, ents);
    ExtractedProcedure(text, ents);
    ExtractedDurationShape(text, ents);
    ExtractedLocation(text, ents);
  }

  lemma ExtractedAge(text: string, ents: seq<Entity>)
    ensures var slots := ExtractSlots(text, ents);
      "age" in slots ==> slots["age"].Int? && 0 <= slots["age"].i <= 99
  {
    var v := AgeSlot(text);
    ExtractedFrom(text, ents, "age", v);
  }

  lemma ExtractedGender(text: string, ents: seq<Entity>)
    ensures var slots := ExtractSlots(text, ents);
      "gender" in slots ==> slots["gender"].Str? && LowerStr(slots["gender"].s) in GenderWords
  {
    var v := GenderSlot(text);
    ExtractedFrom(text, ents, "gender", v);
  }

  lemma ExtractedProcedure(text: string, ents: seq<Entity>)
    ensures var slots := ExtractSlots(text, ents);
      "procedure" in slots ==> slots["procedure"].Str? && LowerStr(slots["procedure"].s) in ProcedureWords
  {
    var v := ProcedureSlot(text);
    ExtractedFrom(text, ents, "procedure", v);
  }

  lemma ExtractedDurationShape(text: string, ents: seq<Entity>)
    ensures var slots := ExtractSlots(text, ents);
      "policy_duration" in slots ==>
        slots["policy_duration"].Str? && |slots["policy_duration"].s| > 0 && IsDigit(slots["policy_duration"].s[0])
  {
    var v := DurationSlot(text);
    ExtractedFrom(text, ents, "policy_duration", v);
  }

  /** A slot other than location holds what its pattern produced. */
  lemma ExtractedFrom(text: string, ents: seq<Entity>, key: string, v: Option<SlotValue>)
    requires key in SlotNames && key != "location" && RegexSlot(text, key) == v
    ensures key in ExtractSlots(text, ents) <==> v.Some?
    ensures key in ExtractSlots(text, ents) ==> ExtractSlots(text, ents)[key] == v.value
  {
  }

  /** The location, from the pattern or from an entity, is a string. */
  lemma ExtractedLocation(text: string, ents: seq<Entity>)
    ensures "location" in ExtractSlots(text, ents) ==> ExtractSlots(text, ents)["location"].Str?
  {
  }

  /** None of the keywords contains "cosmetic": each lacks one of its letters. */
  lemma KeywordsNotCosmetic()
    ensures forall x :: 0 <= x < |ProcedureWords| ==> !Contains(ProcedureWords[x], "cosmetic")
  {
    AbsentLetter("knee", "cosmetic", 0);
    AbsentLetter("hip", "cosmetic", 0);
    AbsentLetter("bypass", "cosmetic", 0);
    AbsentLetter("cataract", "cosmetic", 3);
    AbsentLetter("surgery", "cosmetic", 0);
    AbsentLetter("replacement", "cosmetic", 2);
    AbsentLetter("fracture", "cosmetic", 3);
    AbsentLetter("angioplasty", "cosmetic", 3);
  }
}

=== FILE: pipeline.dfy ===
/** The `/process_query` endpoint: slots from the query, the rules engine on
    the model's proposal, and the stored response.  Retrieval, summarising and
    the model's reply come from services outside this model and are inputs. */
module Pipeline {
  import opened Wrappers
  import opened Text
  import opened Records
  import opened Rules
  import opened Intake
  import opened Assemble

  /** What the extractor produces never makes the rules engine raise on the
      procedure: only a missing decision key can. */
  lemma ExtractedWellFormed(text: string, ents: seq<Entity>, d: LlmDecision)
    ensures WellFormed(ExtractSlots(text, ents), d) <==> !d.decision.Absent?
  {
    ExtractedSlotShapes(text, ents);
  }

  /** On extracted slots the waiting-period rule always records a verdict,
      the age rule never records `unknown`, and the procedure rule never
      fires, since no keyword contains "cosmetic". */
  lemma ExtractedVerdicts(text: string, ents: seq<Entity>, d: LlmDecision)
    requires !d.decision.Absent?
    ensures ApplyRules(ExtractSlots(text, ents), d).Success?
    ensures var ev := ApplyRules(ExtractSlots(text, ents), d).value.ruleEvents;
      && VerdictOf(ev, WaitingPeriod).Some?
      && VerdictOf(ev, AgeLimit) != Some(Unknown)
      && VerdictOf(ev, ProcedureExclusion) == None
  {
    var slots := ExtractSlots(text, ents);
    ExtractedWellFormed(text, ents, d);
    ExtractedSlotShapes(text, ents);
    WaitingPeriodVerdict(slots, d);
    AgeLimitVerdict(slots, d);
    ProcedureVerdict(slots, d);
    if "procedure" in slots {
      var p := LowerStr(slots["procedure"].s);
      KeywordsNotCosmetic();
      var x :| 0 <= x < |ProcedureWords| && ProcedureWords[x] == p;
      assert !Contains(p, "cosmetic");
    }
  }

  /** A query with no duration phrase is rejected with amount 0, whatever the
      model proposed: the missing duration counts as 0 months. */
  lemma NoDurationRejected(text: string, ents: seq<Entity>, d: LlmDecision)
    requires !d.decision.Absent? && DurationSlot(text).None?
    ensures ApplyRules(ExtractSlots(text, ents), d).Success?
    ensures var o := ApplyRules(ExtractSlots(text, ents), d).value;
      o.finalDecision == Some(Rejected) && o.finalAmount == Some(0)
  {
    var slots := ExtractSlots(text, ents);
    assert RegexSlot(text, "policy_duration") == DurationSlot(text);
    assert "policy_duration" !in slots;
    ExtractedWellFormed(text, ents, d);
    WaitingPeriodVerdict(slots, d);
    FailureRejects(slots, d);
  }

  /** A duration phrase without a lower-case "m" (one in years, or written
      "Months") also rejects with amount 0: the case-sensitive month pattern
      finds nothing in it. */
  lemma DurationWithoutMonthsRejected(text: string, ents: seq<Entity>, d: LlmDecision, t: string)
    requires !d.decision.Absent? && DurationSlot(text) == Some(Str(t))
    requires forall k :: 0 <= k < |t| ==> t[k] != 'm'
    ensures ApplyRules(ExtractSlots(text, ents), d).Success?
    ensures var o := ApplyRules(ExtractSlots(text, ents), d).value;
      && VerdictOf(o.ruleEvents, WaitingPeriod) == Some(Failed)
      && o.finalDecision == Some(Rejected) && o.finalAmount == Some(0)
  {
    var slots := ExtractSlots(text, ents);
    ExtractedDuration(text, ents, t);
    ExtractedWellFormed(text, ents, d);
    NoMonthsRejected(slots, d, t);
  }

  lemma ExtractedDuration(text: string, ents: seq<Entity>, t: string)
    requires DurationSlot(text) == Some(Str(t))
    ensures "policy_duration" in ExtractSlots(text, ents)
    ensures ExtractSlots(text, ents)["policy_duration"] == Str(t)
  {
    assert RegexSlot(text, "policy_duration") == DurationSlot(text);
  }

  /** `process_query`: extract, run the rules on the proposal, and assemble
      the record to store.  The call raises, and nothing is stored, exactly
      when the proposal has no decision key. */
  function ProcessQuery<C, S>(query: string, domain: string, ents: seq<Entity>, retrieved: seq<C>,
                              summaries: seq<S>, decision: LlmDecision): (r: Result<FinalResponse<C, S, RuleOutcome>, RuleError>)
    ensures r.Success? <==> !decision.decision.Absent?
    ensures r.Failure? ==> r.error == MissingDecision
  {
    var slots := ExtractSlots(query, ents);
    ExtractedWellFormed(query, ents, decision);
    ApplyRulesErrors(slots, decision);
    match ApplyRules(slots, decision)
    case Failure(e) => Failure(e)
    case Success(o) => Success(BuildFinalResponse(query, domain, slots, retrieved, summaries, decision, o))
  }

  /** The stored record is consistent across stages: its rules section was
      computed from its own slots, is overridden exactly when its final
      decision differs from the stored model decision, can only have moved
      that decision to "rejected", and keeps the amount within the cap. */
  lemma StoredRecordConsistent<C, S>(query: string, domain: string, ents: seq<Entity>, retrieved: seq<C>,
                                     summaries: seq<S>, decision: LlmDecision)
    requires !decision.decision.Absent?
    ensures ProcessQuery(query, domain, ents, retrieved, summaries, decision).Success?
    ensures var r := ProcessQuery(query, domain, ents, retrieved, summaries, decision).value;
      && r.slots == ExtractSlots(query, ents)
      && Success(r.rules) == ApplyRules(r.slots, decision)
      && r.rules.overriden == (r.rules.finalDecision != r.llmDecision.decision)
      && (r.rules.finalDecision == r.llmDecision.decision || r.rules.finalDecision == Some(Rejected))
      && (r.rules.finalAmount.None? || r.rules.finalAmount.value <= PayoutCap)
  {
    var slots := ExtractSlots(query, ents);
    ExtractedWellFormed(query, ents, decision);
    DecisionProposedOrRejected(slots, decision);
    PayoutBound(slots, decision);
  }

  /** A reply the model did not format as JSON is stored with the raw text as
      its trace and is never approved: the rules keep "unknown" without an
      amount, or reject with amount 0. */
  lemma UnparsedReplyNotApproved<C, S>(query: string, domain: string, ents: seq<Entity>, retrieved: seq<C>,
                                       summaries: seq<S>, raw: string)
    ensures ProcessQuery(query, domain, ents, retrieved, summaries, UnparsedReply(raw)).Success?
    ensures var r := ProcessQuery(query, domain, ents, retrieved, summaries, UnparsedReply(raw)).value;
      && r.reasoningTrace == Some([raw])
      && r.llmDecision == DecisionView(Some("unknown"), None)
      && ((r.rules.finalDecision == Some("unknown") && r.rules.finalAmount == None)
          || (r.rules.finalDecision == Some(Rejected) && r.rules.finalAmount == Some(0)))
  {
    var d := UnparsedReply(raw);
    var slots := ExtractSlots(query, ents);
    ExtractedWellFormed(query, ents, d);
    assert !Truthy(d.amount.Get());
    FailureRejects(slots, d);
    PayoutVerdict(slots, d);
    ProposalSurvives(slots, d);
  }
}

=== FILE: records.dfy ===
/** The values that flow between the pipeline's stages: the slot map built
    from a query and the decision record proposed by the language model. */
module Records {
  import opened Wrappers
  import opened Text

  /** A slot value as Python sees it.  The extractor only produces `Int` and
      `Str`; any other object a caller may put in a slot is `Other`, carrying
      what Python's `int()` makes of it (`None` when `int()` raises). */
  datatype SlotValue = Int(i: int) | Str(s: string) | Other(asInt: Option<int>)

  /** The slot dictionary, keyed by slot name. */
  type Slots = map<string, SlotValue>

  /** A key of a JSON object: missing, present with `null`, or present with a value. */
  datatype Field<+T> = Absent | Null | Present(value: T) {

    /** Python's `dict.get(key)`: `None` for a missing key and for `null`. */
    function Get(): Option<T> {
      match this
      case Present(v) => Some(v)
      case _ => None
    }
  }

  /** The decision record parsed from the model's JSON reply.  The decision is
      any string: the model is asked for "approved" or "rejected", and the
      fallback for an unparseable reply uses "unknown". */
  datatype LlmDecision = LlmDecision(
    reasoningTrace: Field<seq<string>>,
    decision: Field<string>,
    amount: Field<int>)

  /** The record `decide_with_chain_of_thought` falls back to when the reply
      is not JSON: the raw reply as the only trace step, decision "unknown"
      and no amount. */
  function UnparsedReply(raw: string): (d: LlmDecision)
    ensures d.decision.Get() == Some("unknown") && d.amount.Get() == None
    ensures d.reasoningTrace.Get() == Some([raw])
  {
    LlmDecision(Present([raw]), Present("unknown"), Null)
  }

  /** The ASCII whitespace `int()` strips from a string: space and tab to
      carriage return.  Unlike `\s`, it leaves the separators 0x1C to 0x1F. */
  predicate IntSpace(c: char) { c == ' ' || ('\t' <= c <= '\r') }

  /** Removes whitespace from both ends, as `int()` does. */
  function Strip(s: string): (r: string)
    ensures |r| <= |s|
    ensures |r| > 0 ==> !IntSpace(r[0]) && !IntSpace(r[|r| - 1])
  {
    if |s| > 0 && IntSpace(s[0]) then Strip(s[1..])
    else if |s| > 0 && IntSpace(s[|s| - 1]) then Strip(s[..|s| - 1])
    else s
  }

  /** Python's `int()` on a string: optional surrounding whitespace, an
      optional sign and at least one ASCII digit; anything else raises. */
  function ParseInt(s: string): (r: Option<int>)
    ensures AllDigits(s) && |s| > 0 ==> r == Some(DecimalValue(s))
  {
    var t := Strip(s);
    if |t| > 0 && AllDigits(t) then Some(DecimalValue(t))
    else if |t| > 1 && (t[0] == '+' || t[0] == '-') && AllDigits(t[1..]) then
      (if t[0] == '-' then Some(0 - DecimalValue(t[1..]) as int) else Some(DecimalValue(t[1..])))
    else None
  }

  /** A leading file separator is whitespace to `\s` but not to `int()`:
      the age string "\x1c46" does not parse, while " 46" does. */
  lemma SeparatorNotStripped()
    ensures IsSpace('\U{1C}') && !IntSpace('\U{1C}')
    ensures ParseInt("\U{1C}46") == None
    ensures ParseInt(" 46") == Some(46)
  {
    var t := "\U{1C}46";
    assert Strip(t) == t;
    assert !IsDigit(t[0]);
    assert Strip(" 46") == Strip("46") == "46";
    assert DecimalValue("4") == 4 by { assert "4"[..0] == []; }
    assert "46"[..1] == "4";
  }

  /** Python's `int(value)`: `None` stands for the exception it raises. */
  function IntOf(v: SlotValue): Option<int> {
    match v
    case Int(i) => Some(i)
    case Str(s) => ParseInt(s)
    case Other(c) => c
  }
}

=== FILE: rules.dfy ===
/** The deterministic claim rules of `apply_rules`: four rules run in a fixed
    order over a running decision and amount, each appending at most one event
    to an audit trail. */
module Rules {
  import opened Wrappers
  import opened Text
  import opened Records

  datatype Rule = WaitingPeriod | AgeLimit | ProcedureExclusion | MaxPayoutLimit

  datatype Verdict = Passed | Failed | Capped | Unknown

  datatype RuleEvent = RuleEvent(rule: Rule, result: Verdict, notes: string)

  /** The exceptions that escape `apply_rules`: a decision record without a
      "decision" key (`KeyError`), and a procedure slot that is not a string
      (`AttributeError` on `.lower()`, or `TypeError` from `in` for bytes). */
  datatype RuleError = MissingDecision | ProcedureNotText

  /** The dictionary `apply_rules` returns; `overriden` keeps the source's spelling. */
  datatype RuleOutcome = RuleOutcome(
    finalDecision: Option<string>,
    finalAmount: Option<int>,
    ruleEvents: seq<RuleEvent>,
    overriden: bool)

  /** The running values threaded through the rules. */
  datatype State = State(decision: Option<string>, amount: Option<int>, events: seq<RuleEvent>)

  const Rejected: string := "rejected"
  const MinWaitingMonths: nat := 3
  const MaxAge: int := 80
  const PayoutCap: int := 100000

  /** The rules in the order `apply_rules` runs them. */
  const Battery: seq<Rule> := [WaitingPeriod, AgeLimit, ProcedureExclusion, MaxPayoutLimit]

  function Rank(rule: Rule): nat {
    match rule
    case WaitingPeriod => 0
    case AgeLimit => 1
    case ProcedureExclusion => 2
    case MaxPayoutLimit => 3
  }

  /** Python truthiness of the amount: `None` and `0` are false. */
  predicate Truthy(amount: Option<int>) {
    amount.Some? && amount.value != 0
  }

  // ---------------------------------------------------------------------------
  // Rule 1: the waiting period and its month pattern

  /** The case-sensitive unit alternation `(month|mo)` at position `u`. */
  function MonthUnitAt(s: string, u: nat): Option<nat> {
    Else(if ContainsAt(s, "month", u) then Some(u + 5) else None,
         if ContainsAt(s, "mo", u) then Some(u + 2) else None)
  }

  /** Python's backtracking match of `(\d+)[- ]?(month|mo)` at position `i`:
      the greedy digit run, then the separator if there is one, then the unit. */
  function MonthAt(s: string, i: nat): Option<nat> {
    if i < |s| && IsDigit(s[i]) then
      var d := DigitsEnd(s, i);
      Else(if d < |s| && IsSep(s[d]) then MonthUnitAt(s, d + 1) else None, MonthUnitAt(s, d))
    else None
  }

  /** Reference reading of the same pattern: `s[i..j]` is a digit group
      `s[i..d]`, an optional separator `s[d..u]` and a unit `s[u..j]`. */
  ghost predicate MonthParse(s: string, i: nat, d: nat, u: nat, j: nat) {
    i < d && DigitSpan(s, i, d) && SepOpt(s, d, u) && u <= j <= |s| && s[u..j] in {"month", "mo"}
  }

  ghost predicate MonthLang(s: string, i: nat, j: nat) {
    exists d: nat, u: nat :: MonthParse(s, i, d, u, j)
  }

  /** The matcher finds a match of the pattern, and the longest one: a parse
      at `i` always has its digit group ending where the greedy run ends, and
      the matcher prefers "month" to "mo". */
  lemma MonthAtLongest(s: string, i: nat)
    ensures MonthAt(s, i).Some? ==> MonthLang(s, i, MonthAt(s, i).value)
    ensures forall d: nat, u: nat, j: nat :: MonthParse(s, i, d, u, j) ==>
      MonthAt(s, i).Some? && j <= MonthAt(s, i).value && d == DigitsEnd(s, i)
  {
    if MonthAt(s, i).Some? {
      var d := DigitsEnd(s, i);
      var j := MonthAt(s, i).value;
      var u := if d < |s| && IsSep(s[d]) && MonthUnitAt(s, d + 1).Some? then d + 1 else d;
      assert MonthParse(s, i, d, u, j);
    }
    forall d: nat, u: nat, j: nat | MonthParse(s, i, d, u, j)
      ensures MonthAt(s, i).Some? && j <= MonthAt(s, i).value && d == DigitsEnd(s, i)
    {
      MonthAtCovers(s, i, d, u, j);
    }
  }

  /** One parse at `i` is found by the matcher, with no longer end. */
  lemma MonthAtCovers(s: string, i: nat, d: nat, u: nat, j: nat)
    requires MonthParse(s, i, d, u, j)
    ensures MonthAt(s, i).Some? && j <= MonthAt(s, i).value && d == DigitsEnd(s, i)
  {
    assert s[u..j][0] == 'm';
    DigitsEndUnique(s, i, d);
    if u == d + 1 {
      assert MonthUnitAt(s, d + 1).Some?;
    } else {
      assert MonthUnitAt(s, d).Some?;
    }
  }

  /** `months` of rules.py: the digit group of the leftmost match, or 0. */
  function WaitingMonths(dur: string): nat {
    match Search(dur, MonthAt, 0)
    case None => 0
    case Some((i, _)) =>
      var d := DigitsEnd(dur, i);
      assert AllDigits(dur[i..d]);
      DecimalValue(dur[i..d])
  }

  /** No parse anywhere: `months` stays 0.  Otherwise it is the value of the
      digit group of the leftmost parse. */
  lemma WaitingMonthsLeftmost(dur: string)
    ensures (forall i: nat, j: nat :: !MonthLang(dur, i, j)) ==> WaitingMonths(dur) == 0
    ensures forall i: nat, d: nat, u: nat, j: nat ::
      MonthParse(dur, i, d, u, j) && (forall i': nat, j': nat :: i' < i ==> !MonthLang(dur, i', j')) ==>
      AllDigits(dur[i..d]) && WaitingMonths(dur) == DecimalValue(dur[i..d])
  {
    match Search(dur, MonthAt, 0)
    case None =>
      forall i: nat, d: nat, u: nat, j: nat | MonthParse(dur, i, d, u, j)
        ensures false
      {
        MonthAtCovers(dur, i, d, u, j);
      }
    case Some((k, e)) =>
      MonthAtLongest(dur, k);
      assert MonthLang(dur, k, e);
      forall i: nat, d: nat, u: nat, j: nat |
        MonthParse(dur, i, d, u, j) && (forall i': nat, j': nat :: i' < i ==> !MonthLang(dur, i', j'))
        ensures AllDigits(dur[i..d]) && WaitingMonths(dur) == DecimalValue(dur[i..d])
      {
        SearchFindsLeftmost(dur, k, e, i, d, u, j);
      }
  }

  /** The search stops at the first parse. */
  lemma SearchFindsLeftmost(dur: string, k: nat, e: nat, i: nat, d: nat, u: nat, j: nat)
    requires Search(dur, MonthAt, 0) == Some((k, e))
    requires MonthParse(dur, i, d, u, j) && (forall i': nat, j': nat :: i' < i ==> !MonthLang(dur, i', j'))
    ensures k == i && d == DigitsEnd(dur, k)
  {
    MonthAtLongest(dur, k);
    assert MonthLang(dur, k, e);
    MonthAtCovers(dur, i, d, u, j);
  }

  /** The input `re.search` sees: `slots.get("policy_duration", "")`, or `None`
      when that value is not a string and the search raises. */
  function DurationText(slots: Slots): Option<string> {
    if "policy_duration" !in slots then Some("")
    else match slots["policy_duration"]
      case Str(t) => Some(t)
      case _ => None
  }

  /** Rule 1 (waiting period): `None` when the search raises, otherwise
      passed iff the month count reaches the minimum. */
  function WaitingCheck(slots: Slots): Option<Verdict> {
    match DurationText(slots)
    case None => None
    case Some(dur) => Some(if WaitingMonths(dur) >= MinWaitingMonths then Passed else Failed)
  }

  /** Rule 2 (age limit): only when an age is present; `unknown` when `int()` raises. */
  function AgeCheck(slots: Slots): Option<Verdict> {
    if "age" !in slots then None
    else match IntOf(slots["age"])
      case None => Some(Unknown)
      case Some(age) => Some(if age > MaxAge then Failed else Passed)
  }

  /** Rule 3 (procedure exclusion): fails on "cosmetic" in the lower-cased
      procedure and records nothing otherwise; a procedure that is not a
      string raises, since this test sits outside any `try`. */
  function ProcedureCheck(slots: Slots): Result<Option<Verdict>, RuleError> {
    if "procedure" !in slots then Success(None)
    else match slots["procedure"]
      case Str(p) => Success(if Contains(LowerStr(p), "cosmetic") then Some(Failed) else None)
      case _ => Failure(ProcedureNotText)
  }

  /** Rule 4 (maximum payout): caps a truthy amount above the limit. */
  function PayoutCheck(amount: Option<int>): Option<Verdict> {
    if Truthy(amount) && amount.value > PayoutCap then Some(Capped) else None
  }

  /** The notes text each rule writes with each verdict. */
  function Notes(rule: Rule, v: Verdict): string {
    match (rule, v)
    case (WaitingPeriod, Failed) => "Policy duration less than required 3 months"
    case (WaitingPeriod, _) => "Policy duration meets waiting period"
    case (AgeLimit, Failed) => "Claimant over age limit"
    case (AgeLimit, Unknown) => "Could not parse age"
    case (AgeLimit, _) => "Age within allowed range"
    case (ProcedureExclusion, _) => "Cosmetic procedures are not covered"
    case (MaxPayoutLimit, _) => "Payout capped at 100000"
  }

  // ---------------------------------------------------------------------------
  // The fold and its audit-trail invariant

  /** What an event with verdict `v` does to the running decision and amount:
      a failure rejects and zeroes the amount, a cap clamps the amount. */
  function Effect(v: Verdict, da: (Option<string>, Option<int>)): (Option<string>, Option<int>) {
    match v
    case Failed => (Some(Rejected), Some(0))
    case Capped => (da.0, Some(PayoutCap))
    case _ => da
  }

  /** Appends the event for verdict `v` of `rule`, if any, and applies its effect. */
  function Record(st: State, rule: Rule, v: Option<Verdict>): State {
    match v
    case None => st
    case Some(x) =>
      var da := Effect(x, (st.decision, st.amount));
      State(da.0, da.1, st.events + [RuleEvent(rule, x, Notes(rule, x))])
  }

  /** The decision and amount obtained by applying the events' effects in order. */
  function Replay(events: seq<RuleEvent>, da: (Option<string>, Option<int>)): (Option<string>, Option<int>)
    decreases |events|
  {
    if events == [] then da else Replay(events[1..], Effect(events[0].result, da))
  }

  /** The rules of a trail, event by event. */
  function RulesOf(events: seq<RuleEvent>): seq<Rule> {
    seq(|events|, k requires 0 <= k < |events| => events[k].rule)
  }

  /** `a` can be obtained from `b` by deleting elements. */
  predicate SubsequenceOf(a: seq<Rule>, b: seq<Rule>)
    decreases |b|
  {
    a == [] || (b != [] && ((a[0] == b[0] && SubsequenceOf(a[1..], b[1..])) || SubsequenceOf(a, b[1..])))
  }

  /** A rule changes nothing or appends one event of its own that accounts for
      the whole change to the decision and amount. */
  predicate StepShape(rule: Rule, st: State, st': State) {
    st' == st ||
    (|st'.events| == |st.events| + 1 && st'.events[..|st.events|] == st.events
     && st'.events[|st.events|].rule == rule
     && (st'.decision, st'.amount) == Effect(st'.events[|st.events|].result, (st.decision, st.amount)))
  }

  /** The verdicts each rule can record: `procedure_exclusion` never records
      `passed`, and only the payout rule caps. */
  function Allowed(rule: Rule): set<Verdict> {
    match rule
    case WaitingPeriod => {Passed, Failed}
    case AgeLimit => {Passed, Failed, Unknown}
    case ProcedureExclusion => {Failed}
    case MaxPayoutLimit => {Capped}
  }

  /** One rule of the battery applied to the running state. */
  function Step(rule: Rule, slots: Slots, st: State): (r: Result<State, RuleError>)
    ensures r.Success? ==> StepShape(rule, st, r.value)
    ensures r.Success? && r.value != st ==> r.value.events[|st.events|].result in Allowed(rule)
    ensures r.Failure? <==> rule == ProcedureExclusion && "procedure" in slots && !slots["procedure"].Str?
  {
    match rule
    case WaitingPeriod => Success(Record(st, rule, WaitingCheck(slots)))
    case AgeLimit => Success(Record(st, rule, AgeCheck(slots)))
    case ProcedureExclusion =>
      (match ProcedureCheck(slots)
       case Failure(e) => Failure(e)
       case Success(v) => Success(Record(st, rule, v)))
    case MaxPayoutLimit => Success(Record(st, rule, PayoutCheck(st.amount)))
  }

  /** Runs `rules` left to right; the first rule that raises stops the fold. */
  function Fold(rules: seq<Rule>, slots: Slots, st: State): (r: Result<State, RuleError>)
    ensures r.Success? ==> |st.events| <= |r.value.events| && r.value.events[..|st.events|] == st.events
    ensures r.Success? ==> (r.value.decision, r.value.amount) == Replay(r.value.events[|st.events|..], (st.decision, st.amount))
    ensures r.Success? ==> SubsequenceOf(RulesOf(r.value.events[|st.events|..]), rules)
    decreases |rules|
  {
    if rules == [] then Success(st)
    else match Step(rules[0], slots, st)
      case Failure(e) => Failure(e)
      case Success(st') =>
        var r := Fold(rules[1..], slots, st');
        if r.Success? then TrailExtends(rules[0], rules[1..], st, st', r.value); r else r
  }

  /** The fold's invariant survives putting one more rule in front. */
  lemma TrailExtends(rule: Rule, rest: seq<Rule>, st: State, st': State, fin: State)
    requires StepShape(rule, st, st')
    requires |st'.events| <= |fin.events| && fin.events[..|st'.events|] == st'.events
    requires (fin.decision, fin.amount) == Replay(fin.events[|st'.events|..], (st'.decision, st'.amount))
    requires SubsequenceOf(RulesOf(fin.events[|st'.events|..]), rest)
    ensures |st.events| <= |fin.events| && fin.events[..|st.events|] == st.events
    ensures (fin.decision, fin.amount) == Replay(fin.events[|st.events|..], (st.decision, st.amount))
    ensures SubsequenceOf(RulesOf(fin.events[|st.events|..]), [rule] + rest)
  {
    var rules := [rule] + rest;
    assert rules[1..] == rest;
    var added := fin.events[|st.events|..];
    if st' == st {
      assert SubsequenceOf(RulesOf(added), rules);
    } else {
      var later := fin.events[|st'.events|..];
      assert fin.events[..|st.events|] == fin.events[..|st'.events|][..|st.events|];
      assert added == [st'.events[|st.events|]] + later;
      assert added[1..] == later;
      assert RulesOf(added)[1..] == RulesOf(later);
    }
  }

  /** `apply_rules(slots, llm_decision)`. */
  function ApplyRules(slots: Slots, d: LlmDecision): (r: Result<RuleOutcome, RuleError>)
    ensures r.Success? ==> r.value.overriden == (r.value.finalDecision != d.decision.Get())
    ensures r.Success? ==> (r.value.finalDecision, r.value.finalAmount) == Replay(r.value.ruleEvents, (d.decision.Get(), d.amount.Get()))
    ensures r.Success? ==> SubsequenceOf(RulesOf(r.value.ruleEvents), Battery)
    ensures d.decision.Absent? ==> r == Failure(MissingDecision)
  {
    if d.decision.Absent? then Failure(MissingDecision)
    else
      var proposed := d.decision.Get();
      var init := State(proposed, d.amount.Get(), []);
      match Fold(Battery, slots, init)
      case Failure(e) => Failure(e)
      case Success(st) =>
        assert st.events[0..] == st.events;
        Success(RuleOutcome(st.decision, st.amount, st.events, st.decision != proposed))
  }

  // ---------------------------------------------------------------------------
  // Properties of the engine

  /** The inputs on which `apply_rules` returns instead of raising. */
  predicate WellFormed(slots: Slots, d: LlmDecision) {
    !d.decision.Absent? && ("procedure" in slots ==> slots["procedure"].Str?)
  }

  /** The verdict the trail records for `rule`, if any. */
  function VerdictOf(events: seq<RuleEvent>, rule: Rule): Option<Verdict>
    decreases |events|
  {
    if events == [] then None
    else if events[|events| - 1].rule == rule then Some(events[|events| - 1].result)
    else VerdictOf(events[..|events| - 1], rule)
  }

  /** Some event of the trail is a failure. */
  predicate AnyFailed(events: seq<RuleEvent>) {
    exists k :: 0 <= k < |events| && events[k].result == Failed
  }

  /** The state `apply_rules` starts from. */
  function Initial(d: LlmDecision): State {
    State(d.decision.Get(), d.amount.Get(), [])
  }

  /** The four rules in a row, given the verdicts of the first three; the
      payout rule looks at the amount the first three leave. */
  ghost function Run(s0: State, vw: Option<Verdict>, va: Option<Verdict>, vp: Option<Verdict>): State {
    var s3 := Record(Record(Record(s0, WaitingPeriod, vw), AgeLimit, va), ProcedureExclusion, vp);
    Record(s3, MaxPayoutLimit, PayoutCheck(s3.amount))
  }

  /** On a well-formed input `apply_rules` is the run of the four checks. */
  lemma ApplyRulesRun(slots: Slots, d: LlmDecision) returns (s: State)
    requires WellFormed(slots, d)
    ensures ProcedureCheck(slots).Success?
    ensures s == Run(Initial(d), WaitingCheck(slots), AgeCheck(slots), ProcedureCheck(slots).value)
    ensures ApplyRules(slots, d) == Success(RuleOutcome(s.decision, s.amount, s.events, s.decision != d.decision.Get()))
  {
    s := Run(Initial(d), WaitingCheck(slots), AgeCheck(slots), ProcedureCheck(slots).value);
    FoldBattery(slots, Initial(d));
  }

  /** Folding the battery from `s0` is the run of the four checks. */
  lemma FoldBattery(slots: Slots, s0: State)
    requires ProcedureCheck(slots).Success?
    ensures Fold(Battery, slots, s0) == Success(Run(s0, WaitingCheck(slots), AgeCheck(slots), ProcedureCheck(slots).value))
  {
    var s1 := Record(s0, WaitingPeriod, WaitingCheck(slots));
    var s2 := Record(s1, AgeLimit, AgeCheck(slots));
    FoldLastTwo(slots, s2);
    assert Battery[1..][1..] == Battery[2..];
    assert Fold(Battery[1..], slots, s1) == Fold(Battery[2..], slots, s2);
  }

  /** The last two rules of the battery: the procedure check, then the payout
      check on the amount it leaves. */
  lemma FoldLastTwo(slots: Slots, s2: State)
    requires ProcedureCheck(slots).Success?
    ensures var s3 := Record(s2, ProcedureExclusion, ProcedureCheck(slots).value);
      Fold(Battery[2..], slots, s2) == Success(Record(s3, MaxPayoutLimit, PayoutCheck(s3.amount)))
  {
    var s3 := Record(s2, ProcedureExclusion, ProcedureCheck(slots).value);
    assert Battery[2..][1..] == [MaxPayoutLimit] && [MaxPayoutLimit][1..] == [];
    assert Fold([MaxPayoutLimit], slots, s3) == Success(Record(s3, MaxPayoutLimit, PayoutCheck(s3.amount)));
  }

  /** `apply_rules` raises exactly when the decision key is missing or the
      procedure slot is not a string, and the missing key is reported first. */
  lemma ApplyRulesErrors(slots: Slots, d: LlmDecision)
    ensures ApplyRules(slots, d).Success? <==> WellFormed(slots, d)
    ensures ApplyRules(slots, d) == Failure(MissingDecision) <==> d.decision.Absent?
  {
    if !d.decision.Absent? {
      if WellFormed(slots, d) {
        var _ := ApplyRulesRun(slots, d);
      } else {
        var s1 := Record(Initial(d), WaitingPeriod, WaitingCheck(slots));
        var s2 := Record(s1, AgeLimit, AgeCheck(slots));
        assert Battery[1..][1..][0] == ProcedureExclusion;
        assert Fold(Battery[1..][1..], slots, s2) == Failure(ProcedureNotText);
        assert Fold(Battery, slots, Initial(d)) == Failure(ProcedureNotText);
      }
    }
  }

  /** Only "rejected" is ever written: replaying a trail leaves the proposed
      decision or replaces it by "rejected", and never undoes a rejection. */
  lemma {:induction false} ReplayDecision(events: seq<RuleEvent>, da: (Option<string>, Option<int>))
    ensures Replay(events, da).0 == da.0 || Replay(events, da).0 == Some(Rejected)
    ensures da.0 == Some(Rejected) ==> Replay(events, da).0 == Some(Rejected)
    decreases |events|
  {
    if events != [] {
      ReplayDecision(events[1..], Effect(events[0].result, da));
    }
  }

  /** The final decision is the proposed one or "rejected"; rejection is
      sticky, and an override is always a rejection. */
  lemma DecisionProposedOrRejected(slots: Slots, d: LlmDecision)
    requires WellFormed(slots, d)
    ensures ApplyRules(slots, d).Success?
    ensures var o := ApplyRules(slots, d).value;
      (o.finalDecision == d.decision.Get() || o.finalDecision == Some(Rejected))
      && (d.decision.Get() == Some(Rejected) ==> o.finalDecision == Some(Rejected))
      && (o.overriden ==> o.finalDecision == Some(Rejected))
  {
    ApplyRulesErrors(slots, d);
    ReplayDecision(ApplyRules(slots, d).value.ruleEvents, (d.decision.Get(), d.amount.Get()));
  }

  // ---------------------------------------------------------------------------
  // Ordering of the trail

  /** Rules appear in strictly increasing battery order. */
  predicate RanksIncrease(rules: seq<Rule>) {
    forall a, b :: 0 <= a < b < |rules| ==> Rank(rules[a]) < Rank(rules[b])
  }

  lemma {:induction false} SubsequenceElements(a: seq<Rule>, b: seq<Rule>)
    requires SubsequenceOf(a, b)
    ensures |a| <= |b|
    ensures forall k :: 0 <= k < |a| ==> a[k] in b
    decreases |b|
  {
    if a != [] {
      if a[0] == b[0] && SubsequenceOf(a[1..], b[1..]) {
        SubsequenceElements(a[1..], b[1..]);
        forall k | 0 < k < |a| ensures a[k] in b {
          assert a[k] == a[1..][k - 1];
        }
      } else {
        SubsequenceElements(a, b[1..]);
      }
    }
  }

  /** Deleting rules from an ordered list keeps it ordered. */
  lemma {:induction false} SubsequenceKeepsOrder(a: seq<Rule>, b: seq<Rule>)
    requires SubsequenceOf(a, b) && RanksIncrease(b)
    ensures RanksIncrease(a)
    decreases |b|
  {
    if a != [] {
      if a[0] == b[0] && SubsequenceOf(a[1..], b[1..]) {
        SubsequenceKeepsOrder(a[1..], b[1..]);
        SubsequenceElements(a[1..], b[1..]);
        forall x, y | 0 <= x < y < |a| ensures Rank(a[x]) < Rank(a[y]) {
          assert a[y] == a[1..][y - 1];
          if x > 0 {
            assert a[x] == a[1..][x - 1];
          } else {
            var m :| 0 <= m < |b[1..]| && b[1..][m] == a[y];
            assert b[m + 1] == a[y];
          }
        }
      } else {
        SubsequenceKeepsOrder(a, b[1..]);
      }
    }
  }

  /** Events appear in the order waiting_period, age_limit,
      procedure_exclusion, max_payout_limit, each at most once. */
  lemma TrailOrdered(slots: Slots, d: LlmDecision)
    requires WellFormed(slots, d)
    ensures ApplyRules(slots, d).Success?
    ensures var ev := ApplyRules(slots, d).value.ruleEvents;
      |ev| <= 4 && forall a, b :: 0 <= a < b < |ev| ==> Rank(ev[a].rule) < Rank(ev[b].rule)
  {
    ApplyRulesErrors(slots, d);
    BatteryRanks();
    TrailOrder(ApplyRules(slots, d).value.ruleEvents, Battery);
  }

  lemma BatteryRanks()
    ensures RanksIncrease(Battery)
  {
  }

  /** A trail whose rules come in order from a list ordered by rank is ordered
      by rank, and no longer than the list. */
  lemma TrailOrder(ev: seq<RuleEvent>, rules: seq<Rule>)
    requires SubsequenceOf(RulesOf(ev), rules) && RanksIncrease(rules)
    ensures |ev| <= |rules| && forall a, b :: 0 <= a < b < |ev| ==> Rank(ev[a].rule) < Rank(ev[b].rule)
  {
    var rs := RulesOf(ev);
    SubsequenceKeepsOrder(rs, rules);
    SubsequenceElements(rs, rules);
    RanksOfEvents(ev);
  }

  /** The ranks of a trail's events are those of its rule list. */
  lemma RanksOfEvents(ev: seq<RuleEvent>)
    requires RanksIncrease(RulesOf(ev))
    ensures forall a, b :: 0 <= a < b < |ev| ==> Rank(ev[a].rule) < Rank(ev[b].rule)
  {
    var rs := RulesOf(ev);
    forall a, b | 0 <= a < b < |ev| ensures Rank(ev[a].rule) < Rank(ev[b].rule) {
      assert rs[a] == ev[a].rule && rs[b] == ev[b].rule;
    }
  }

  // ---------------------------------------------------------------------------
  // The run of four rules

  /** Recording a verdict sets that rule's verdict and no other. */
  lemma RecordVerdict(st: State, rule: Rule, v: Option<Verdict>, other: Rule)
    ensures VerdictOf(Record(st, rule, v).events, other) == (if other == rule && v.Some? then v else VerdictOf(st.events, other))
  {
    if v.Some? {
      var e := Record(st, rule, v).events;
      assert e[..|e| - 1] == st.events;
    }
  }

  /** Recording a verdict adds a failure to the trail only if it is one. */
  lemma RecordFailed(st: State, rule: Rule, v: Option<Verdict>)
    ensures AnyFailed(Record(st, rule, v).events) <==> AnyFailed(st.events) || v == Some(Failed)
  {
    var e := Record(st, rule, v).events;
    if v.Some? {
      var n := |st.events|;
      if AnyFailed(e) {
        var k :| 0 <= k < |e| && e[k].result == Failed;
        if k < n {
          assert st.events[k] == e[k];
        }
      }
      if AnyFailed(st.events) {
        var k :| 0 <= k < n && st.events[k].result == Failed;
        assert e[k] == st.events[k];
      }
      assert e[n].result == v.value;
    }
  }

  /** Each rule of a run records exactly the verdict it was given; the payout
      rule's verdict is decided on the amount the first three leave. */
  lemma RunVerdicts(s0: State, vw: Option<Verdict>, va: Option<Verdict>, vp: Option<Verdict>)
    requires s0.events == []
    ensures var ev := Run(s0, vw, va, vp).events;
      && VerdictOf(ev, WaitingPeriod) == vw && VerdictOf(ev, AgeLimit) == va
      && VerdictOf(ev, ProcedureExclusion) == vp
    ensures var s3 := Record(Record(Record(s0, WaitingPeriod, vw), AgeLimit, va), ProcedureExclusion, vp);
      VerdictOf(Run(s0, vw, va, vp).events, MaxPayoutLimit) == PayoutCheck(s3.amount)
  {
    var s1 := Record(s0, WaitingPeriod, vw);
    var s2 := Record(s1, AgeLimit, va);
    var s3 := Record(s2, ProcedureExclusion, vp);
    var vm := PayoutCheck(s3.amount);
    RecordVerdict(s0, WaitingPeriod, vw, WaitingPeriod); RecordVerdict(s0, WaitingPeriod, vw, AgeLimit);
    RecordVerdict(s0, WaitingPeriod, vw, ProcedureExclusion); RecordVerdict(s0, WaitingPeriod, vw, MaxPayoutLimit);
    RecordVerdict(s1, AgeLimit, va, WaitingPeriod); RecordVerdict(s1, AgeLimit, va, AgeLimit);
    RecordVerdict(s1, AgeLimit, va, ProcedureExclusion); RecordVerdict(s1, AgeLimit, va, MaxPayoutLimit);
    RecordVerdict(s2, ProcedureExclusion, vp, WaitingPeriod); RecordVerdict(s2, ProcedureExclusion, vp, AgeLimit);
    RecordVerdict(s2, ProcedureExclusion, vp, ProcedureExclusion); RecordVerdict(s2, ProcedureExclusion, vp, MaxPayoutLimit);
    RecordVerdict(s3, MaxPayoutLimit, vm, WaitingPeriod); RecordVerdict(s3, MaxPayoutLimit, vm, AgeLimit);
    RecordVerdict(s3, MaxPayoutLimit, vm, ProcedureExclusion); RecordVerdict(s3, MaxPayoutLimit, vm, MaxPayoutLimit);
  }

  /** A failed first-three verdict. */
  predicate SomeFailed(vw: Option<Verdict>, va: Option<Verdict>, vp: Option<Verdict>) {
    vw == Some(Failed) || va == Some(Failed) || vp == Some(Failed)
  }

  /** The decision and amount after the first three rules: any failure
      rejects with amount 0, and otherwise nothing changes. */
  lemma FirstThreeValues(s0: State, vw: Option<Verdict>, va: Option<Verdict>, vp: Option<Verdict>)
    requires vw != Some(Capped) && va != Some(Capped) && vp != Some(Capped)
    ensures var s3 := Record(Record(Record(s0, WaitingPeriod, vw), AgeLimit, va), ProcedureExclusion, vp);
      (s3.decision, s3.amount) ==
        (if SomeFailed(vw, va, vp) then (Some(Rejected), Some(0)) else (s0.decision, s0.amount))
  {
  }

  /** The outcome of a run in closed form: any failure rejects with amount 0;
      otherwise the proposal survives, with a truthy amount above the cap
      clamped to it. */
  lemma RunValues(s0: State, vw: Option<Verdict>, va: Option<Verdict>, vp: Option<Verdict>)
    requires vw != Some(Capped) && va != Some(Capped) && vp != Some(Capped)
    ensures var s := Run(s0, vw, va, vp); var failed := SomeFailed(vw, va, vp);
      && s.decision == (if failed then Some(Rejected) else s0.decision)
      && s.amount == (if failed then Some(0)
                      else if Truthy(s0.amount) && s0.amount.value > PayoutCap then Some(PayoutCap)
                      else s0.amount)
  {
    FirstThreeValues(s0, vw, va, vp);
  }

  /** The trail of a run holds a failure exactly when one of the first three
      verdicts is one. */
  lemma RunFailed(s0: State, vw: Option<Verdict>, va: Option<Verdict>, vp: Option<Verdict>)
    requires s0.events == []
    ensures AnyFailed(Run(s0, vw, va, vp).events) <==> SomeFailed(vw, va, vp)
  {
    var s1 := Record(s0, WaitingPeriod, vw);
    var s2 := Record(s1, AgeLimit, va);
    var s3 := Record(s2, ProcedureExclusion, vp);
    RecordFailed(s0, WaitingPeriod, vw);
    RecordFailed(s1, AgeLimit, va);
    RecordFailed(s2, ProcedureExclusion, vp);
    RecordFailed(s3, MaxPayoutLimit, PayoutCheck(s3.amount));
  }

  // ---------------------------------------------------------------------------
  // What `apply_rules` records and decides

  /** Rule 1: a missing duration counts as 0 months and fails; a string passes
      iff its month count is at least 3; any other value records nothing. */
  lemma WaitingPeriodVerdict(slots: Slots, d: LlmDecision)
    requires WellFormed(slots, d)
    ensures ApplyRules(slots, d).Success?
    ensures var v := VerdictOf(ApplyRules(slots, d).value.ruleEvents, WaitingPeriod);
      && ("policy_duration" !in slots ==> v == Some(Failed))
      && ("policy_duration" in slots && slots["policy_duration"].Str? ==>
            v == Some(if WaitingMonths(slots["policy_duration"].s) >= MinWaitingMonths then Passed else Failed))
      && ("policy_duration" in slots && !slots["policy_duration"].Str? ==> v == None)
  {
    var _ := ApplyRulesRun(slots, d);
    RunVerdicts(Initial(d), WaitingCheck(slots), AgeCheck(slots), ProcedureCheck(slots).value);
    WaitingCheckCases(slots);
  }

  lemma WaitingCheckCases(slots: Slots)
    ensures var v := WaitingCheck(slots);
      && ("policy_duration" !in slots ==> v == Some(Failed))
      && ("policy_duration" in slots && slots["policy_duration"].Str? ==>
            v == Some(if WaitingMonths(slots["policy_duration"].s) >= MinWaitingMonths then Passed else Failed))
      && ("policy_duration" in slots && !slots["policy_duration"].Str? ==> v == None)
  {
    assert WaitingMonths("") == 0;
  }

  /** Rule 2: no age, no event; an age `int()` rejects records `unknown`;
      otherwise it passes iff the age is at most 80. */
  lemma AgeLimitVerdict(slots: Slots, d: LlmDecision)
    requires WellFormed(slots, d)
    ensures ApplyRules(slots, d).Success?
    ensures var v := VerdictOf(ApplyRules(slots, d).value.ruleEvents, AgeLimit);
      && ("age" !in slots ==> v == None)
      && ("age" in slots && IntOf(slots["age"]).None? ==> v == Some(Unknown))
      && ("age" in slots && IntOf(slots["age"]).Some? ==>
            v == Some(if IntOf(slots["age"]).value > MaxAge then Failed else Passed))
  {
    var _ := ApplyRulesRun(slots, d);
    RunVerdicts(Initial(d), WaitingCheck(slots), AgeCheck(slots), ProcedureCheck(slots).value);
  }

  /** Rule 3: the only verdict is `failed`, recorded iff the lower-cased
      procedure contains "cosmetic"; otherwise no event. */
  lemma ProcedureVerdict(slots: Slots, d: LlmDecision)
    requires WellFormed(slots, d)
    ensures ApplyRules(slots, d).Success?
    ensures var v := VerdictOf(ApplyRules(slots, d).value.ruleEvents, ProcedureExclusion);
      && (v == Some(Failed) <==> "procedure" in slots && Contains(LowerStr(slots["procedure"].s), "cosmetic"))
      && (v != Some(Failed) ==> v == None)
  {
    var _ := ApplyRulesRun(slots, d);
    RunVerdicts(Initial(d), WaitingCheck(slots), AgeCheck(slots), ProcedureCheck(slots).value);
  }

  lemma ApplyRulesVerdicts(slots: Slots, d: LlmDecision) returns (s: State, vw: Option<Verdict>, va: Option<Verdict>, vp: Option<Verdict>)
    requires WellFormed(slots, d)
    ensures vw != Some(Capped) && va != Some(Capped) && vp != Some(Capped)
    ensures s == Run(Initial(d), vw, va, vp)
    ensures ApplyRules(slots, d) == Success(RuleOutcome(s.decision, s.amount, s.events, s.decision != d.decision.Get()))
  {
    s := ApplyRulesRun(slots, d);
    vw, va, vp := WaitingCheck(slots), AgeCheck(slots), ProcedureCheck(slots).value;
    ChecksNeverCap(slots);
  }

  /** Only the payout rule records `capped`. */
  lemma ChecksNeverCap(slots: Slots)
    requires ProcedureCheck(slots).Success?
    ensures WaitingCheck(slots) != Some(Capped) && AgeCheck(slots) != Some(Capped)
    ensures ProcedureCheck(slots).value != Some(Capped)
  {
  }

  /** One of the first three rules recorded a failure. */
  predicate SomeRuleFailed(ev: seq<RuleEvent>) {
    VerdictOf(ev, WaitingPeriod) == Some(Failed) || VerdictOf(ev, AgeLimit) == Some(Failed)
    || VerdictOf(ev, ProcedureExclusion) == Some(Failed)
  }

  /** A duration string without a lower-case "m" fails the waiting period,
      which rejects the claim with amount 0. */
  lemma NoMonthsRejected(slots: Slots, d: LlmDecision, t: string)
    requires WellFormed(slots, d)
    requires "policy_duration" in slots && slots["policy_duration"] == Str(t)
    requires forall k :: 0 <= k < |t| ==> t[k] != 'm'
    ensures ApplyRules(slots, d).Success?
    ensures var o := ApplyRules(slots, d).value;
      && VerdictOf(o.ruleEvents, WaitingPeriod) == Some(Failed)
      && o.finalDecision == Some(Rejected) && o.finalAmount == Some(0)
  {
    NoLowerMNoMonths(t);
    WaitingPeriodVerdict(slots, d);
    FailureRejects(slots, d);
  }

  /** The outcome after a failure: the trail holds a failure exactly when one
      of the first three rules failed, and then the claim is rejected with
      amount 0. */
  lemma FailureRejects(slots: Slots, d: LlmDecision)
    requires WellFormed(slots, d)
    ensures ApplyRules(slots, d).Success?
    ensures var o := ApplyRules(slots, d).value;
      && (AnyFailed(o.ruleEvents) <==> SomeRuleFailed(o.ruleEvents))
      && (SomeRuleFailed(o.ruleEvents) ==> o.finalDecision == Some(Rejected) && o.finalAmount == Some(0))
  {
    var s, vw, va, vp := ApplyRulesVerdicts(slots, d);
    RunOutcome(Initial(d), vw, va, vp, s);
  }

  /** Rule 4: a `capped` event is recorded exactly when nothing failed and the
      proposed amount is truthy and above 100000; otherwise nothing is. A
      failure zeroes the amount, and 0 is falsy. */
  lemma PayoutVerdict(slots: Slots, d: LlmDecision)
    requires WellFormed(slots, d)
    ensures ApplyRules(slots, d).Success?
    ensures var ev := ApplyRules(slots, d).value.ruleEvents; var a := d.amount.Get();
      && (VerdictOf(ev, MaxPayoutLimit) == Some(Capped) <==> !SomeRuleFailed(ev) && Truthy(a) && a.value > PayoutCap)
      && (VerdictOf(ev, MaxPayoutLimit) != Some(Capped) ==> VerdictOf(ev, MaxPayoutLimit) == None)
  {
    var s, vw, va, vp := ApplyRulesVerdicts(slots, d);
    RunOutcome(Initial(d), vw, va, vp, s);
  }

  /** Without a failure the proposed decision survives, and the amount is the
      proposed one or, after a `capped` event, 100000. */
  lemma ProposalSurvives(slots: Slots, d: LlmDecision)
    requires WellFormed(slots, d)
    ensures ApplyRules(slots, d).Success?
    ensures var o := ApplyRules(slots, d).value; var ev := o.ruleEvents;
      && (!SomeRuleFailed(ev) ==> o.finalDecision == d.decision.Get())
      && (!SomeRuleFailed(ev) && VerdictOf(ev, MaxPayoutLimit) == Some(Capped) ==> o.finalAmount == Some(PayoutCap))
      && (!SomeRuleFailed(ev) && VerdictOf(ev, MaxPayoutLimit) == None ==> o.finalAmount == d.amount.Get())
  {
    var s, vw, va, vp := ApplyRulesVerdicts(slots, d);
    RunOutcome(Initial(d), vw, va, vp, s);
  }

  /** The same, for a run of any three verdicts other than `capped`. */
  lemma RunOutcome(s0: State, vw: Option<Verdict>, va: Option<Verdict>, vp: Option<Verdict>, s: State)
    requires s0.events == [] && s == Run(s0, vw, va, vp)
    requires vw != Some(Capped) && va != Some(Capped) && vp != Some(Capped)
    ensures var ev := s.events; var a := s0.amount; var failed := SomeRuleFailed(ev);
      && (AnyFailed(ev) <==> failed)
      && (failed ==> s.decision == Some(Rejected) && s.amount == Some(0))
      && (VerdictOf(ev, MaxPayoutLimit) == Some(Capped) <==> !failed && Truthy(a) && a.value > PayoutCap)
      && (VerdictOf(ev, MaxPayoutLimit) != Some(Capped) ==> VerdictOf(ev, MaxPayoutLimit) == None)
      && (!failed ==> s.decision == s0.decision)
      && (!failed && VerdictOf(ev, MaxPayoutLimit) == Some(Capped) ==> s.amount == Some(PayoutCap))
      && (!failed && VerdictOf(ev, MaxPayoutLimit) == None ==> s.amount == a)
  {
    RunVerdicts(s0, vw, va, vp);
    FirstThreeValues(s0, vw, va, vp);
    RunValues(s0, vw, va, vp);
    RunFailed(s0, vw, va, vp);
  }

  /** The payout bound: the final amount is `None` or at most 100000. */
  lemma PayoutBound(slots: Slots, d: LlmDecision)
    requires WellFormed(slots, d)
    ensures ApplyRules(slots, d).Success?
    ensures var o := ApplyRules(slots, d).value; o.finalAmount.None? || o.finalAmount.value <= PayoutCap
  {
    var _, vw, va, vp := ApplyRulesVerdicts(slots, d);
    RunValues(Initial(d), vw, va, vp);
  }

  /** When nothing fails and the amount needs no cap, the proposal comes out
      unchanged and is not overridden. */
  lemma NothingElseChanges(slots: Slots, d: LlmDecision)
    requires WellFormed(slots, d)
    ensures ApplyRules(slots, d).Success?
    ensures var o := ApplyRules(slots, d).value; var a := d.amount.Get();
      !AnyFailed(o.ruleEvents) && (!Truthy(a) || a.value <= PayoutCap) ==>
        o.finalDecision == d.decision.Get() && o.finalAmount == a && !o.overriden
  {
    var s, vw, va, vp := ApplyRulesVerdicts(slots, d);
    QuietRun(Initial(d), vw, va, vp, s);
  }

  lemma QuietRun(s0: State, vw: Option<Verdict>, va: Option<Verdict>, vp: Option<Verdict>, s: State)
    requires s0.events == [] && s == Run(s0, vw, va, vp)
    requires vw != Some(Capped) && va != Some(Capped) && vp != Some(Capped)
    ensures !AnyFailed(s.events) && (!Truthy(s0.amount) || s0.amount.value <= PayoutCap) ==>
      s.decision == s0.decision && s.amount == s0.amount
  {
    RunValues(s0, vw, va, vp);
    RunFailed(s0, vw, va, vp);
  }

  /** An age that passes or cannot be parsed only adds its own event: every
      other verdict and the final decision and amount are those of the same
      claim without an age. */
  lemma AgeInert(slots: Slots, d: LlmDecision)
    requires WellFormed(slots, d)
    requires "age" in slots && (IntOf(slots["age"]).None? || IntOf(slots["age"]).value <= MaxAge)
    ensures ApplyRules(slots, d).Success? && ApplyRules(slots - {"age"}, d).Success?
    ensures var o := ApplyRules(slots, d).value; var o' := ApplyRules(slots - {"age"}, d).value;
      && o.finalDecision == o'.finalDecision && o.finalAmount == o'.finalAmount && o.overriden == o'.overriden
      && VerdictOf(o'.ruleEvents, AgeLimit) == None
      && VerdictOf(o.ruleEvents, WaitingPeriod) == VerdictOf(o'.ruleEvents, WaitingPeriod)
      && VerdictOf(o.ruleEvents, ProcedureExclusion) == VerdictOf(o'.ruleEvents, ProcedureExclusion)
      && VerdictOf(o.ruleEvents, MaxPayoutLimit) == VerdictOf(o'.ruleEvents, MaxPayoutLimit)
  {
    var rest := slots - {"age"};
    var vw, va, vp := WaitingCheck(slots), AgeCheck(slots), ProcedureCheck(slots).value;
    assert WaitingCheck(rest) == vw && AgeCheck(rest) == None && ProcedureCheck(rest) == ProcedureCheck(slots);
    var _ := ApplyRulesRun(slots, d);
    var _ := ApplyRulesRun(rest, d);
    RunVerdicts(Initial(d), vw, va, vp);
    RunVerdicts(Initial(d), vw, None, vp);
    FirstThreeValues(Initial(d), vw, va, vp);
    FirstThreeValues(Initial(d), vw, None, vp);
    RunValues(Initial(d), vw, va, vp);
    RunValues(Initial(d), vw, None, vp);
  }

  // ---------------------------------------------------------------------------
  // Worked examples

  /** The month pattern is case-sensitive and needs the letter "m": a duration
      written in years, or as "Months", counts as 0 months. */
  lemma NoLowerMNoMonths(dur: string)
    requires forall k :: 0 <= k < |dur| ==> dur[k] != 'm'
    ensures WaitingMonths(dur) == 0
  {
    WaitingMonthsLeftmost(dur);
    forall i: nat, j: nat | MonthLang(dur, i, j) ensures false {
      var d: nat, u: nat :| MonthParse(dur, i, d, u, j);
      MonthParseUnit(dur, i, d, u, j);
    }
  }

  /** Every parse has its unit starting with "m". */
  lemma MonthParseUnit(s: string, i: nat, d: nat, u: nat, j: nat)
    requires MonthParse(s, i, d, u, j)
    ensures u < |s| && s[u] == 'm'
  {
    assert s[u..j][0] == 'm';
  }

  /** The month count of a leading single digit followed by a unit. */
  lemma LeadingDigitMonths(dur: string, u: nat, j: nat)
    requires MonthParse(dur, 0, 1, u, j)
    ensures WaitingMonths(dur) == dur[0] as int - '0' as int
  {
    WaitingMonthsLeftmost(dur);
    assert forall i': nat, j': nat :: i' < 0 ==> !MonthLang(dur, i', j');
    var t := dur[0..1];
    assert AllDigits(t) && WaitingMonths(dur) == DecimalValue(t);
    assert t[..0] == [] && t[0] == dur[0];
    assert DecimalValue(t) == 10 * DecimalValue([]) + (dur[0] as int - '0' as int);
  }

  /** "3-month-old" counts 3 months and "2-month-old" counts 2. */
  lemma MonthOldExamples()
    ensures WaitingMonths("3-month-old") == 3
    ensures WaitingMonths("2-month-old") == 2
  {
    ThreeMonthOld();
    TwoMonthOld();
  }

  lemma ThreeMonthOld()
    ensures WaitingMonths("3-month-old") == 3
  {
    assert "3-month-old"[2..7] == "month";
    LeadingDigitMonths("3-month-old", 2, 7);
  }

  lemma TwoMonthOld()
    ensures WaitingMonths("2-month-old") == 2
  {
    assert "2-month-old"[2..7] == "month";
    LeadingDigitMonths("2-month-old", 2, 7);
  }

  /** Durations in years, or with a capital "M", count 0 months. */
  lemma NoMonthExamples()
    ensures WaitingMonths("2 years") == 0 && WaitingMonths("3 Months") == 0
  {
    TwoYears();
    CapitalMonths();
  }

  lemma TwoYears()
    ensures WaitingMonths("2 years") == 0
  {
    var y := "2 years";
    assert forall k :: 0 <= k < |y| ==> y[k] in {'2', ' ', 'y', 'e', 'a', 'r', 's'};
    NoLowerMNoMonths(y);
  }

  lemma CapitalMonths()
    ensures WaitingMonths("3 Months") == 0
  {
    var m := "3 Months";
    assert forall k :: 0 <= k < |m| ==> m[k] in {'3', ' ', 'M', 'o', 'n', 't', 'h', 's'};
    NoLowerMNoMonths(m);
  }
}

=== FILE: scenarios.dfy ===
/** Worked claims run through the rules engine. */
module Scenarios {
  import opened Wrappers
  import opened Text
  import opened Records
  import opened Rules
  import opened Intake
  import opened Pipeline

  /** A 46-year-old's knee surgery on a 3-month-old policy. */
  const KneeClaim: Slots := map["age" := Int(46), "policy_duration" := Str("3-month-old"), "procedure" := Str("knee surgery")]

  /** The model's proposal for it: approve 50000. */
  const KneeProposal: LlmDecision := LlmDecision(Present(["covered"]), Present("approved"), Present(50000))

  /** Both the waiting period and the age pass, and "knee surgery" is not cosmetic. */
  lemma KneeClaimChecks()
    ensures WaitingCheck(KneeClaim) == Some(Passed)
    ensures AgeCheck(KneeClaim) == Some(Passed)
    ensures ProcedureCheck(KneeClaim) == Success(None)
  {
    KneeWaiting();
    KneeProcedure();
  }

  lemma KneeWaiting()
    ensures WaitingCheck(KneeClaim) == Some(Passed)
  {
    assert DurationText(KneeClaim) == Some("3-month-old");
    ThreeMonthOld();
  }

  lemma KneeProcedure()
    ensures ProcedureCheck(KneeClaim) == Success(None)
  {
    assert KneeClaim["procedure"] == Str("knee surgery");
    LowerAvoids("knee surgery", 'c');
    AbsentLetter(LowerStr("knee surgery"), "cosmetic", 0);
  }

  /** Two passing events are recorded, and the proposal stands unchanged. */
  lemma KneeSurgeryApproved()
    ensures ApplyRules(KneeClaim, KneeProposal) == Success(RuleOutcome(Some("approved"), Some(50000),
      [RuleEvent(WaitingPeriod, Passed, "Policy duration meets waiting period"),
       RuleEvent(AgeLimit, Passed, "Age within allowed range")], false))
  {
    KneeClaimChecks();
    var s := ApplyRulesRun(KneeClaim, KneeProposal);
    KneeRun();
  }

  /** The run of the knee claim's verdicts on the proposal. */
  lemma KneeRun()
    ensures Run(Initial(KneeProposal), Some(Passed), Some(Passed), None)
      == State(Some("approved"), Some(50000),
               [RuleEvent(WaitingPeriod, Passed, "Policy duration meets waiting period"),
                RuleEvent(AgeLimit, Passed, "Age within allowed range")])
  {
    var e1 := RuleEvent(WaitingPeriod, Passed, "Policy duration meets waiting period");
    var e2 := RuleEvent(AgeLimit, Passed, "Age within allowed range");
    var s1 := State(Some("approved"), Some(50000), [e1]);
    var s2 := State(Some("approved"), Some(50000), [e1, e2]);
    assert Record(Initial(KneeProposal), WaitingPeriod, Some(Passed)) == s1;
    assert Record(s1, AgeLimit, Some(Passed)) == s2;
  }

  /** The sample query of the repository's pipeline script, split after its
      first word. */
  const SampleHead: string := "46-year-old"
  const SampleTail: string := " male, knee surgery in Pune, 3-month-old insurance policy"
  const SampleQuery: string := SampleHead + SampleTail

  /** The duration pattern matches leftmost, so it takes the age phrase
      "46-year" and not the policy's "3-month-old". */
  lemma SampleQueryDuration()
    ensures DurationSlot(SampleQuery) == Some(Str("46-year"))
  {
    var q, head := SampleQuery, SampleHead;
    assert q[..11] == head && head[7] == '-';
    assert DigitSpan(q, 0, 2) && SepOpt(q, 2, 3) && Boundary(q, 7);
    assert q[..7] == head[..7] == "46-year";
    assert q[3..7] == head[3..7] == "year";
    assert LowerStr("year") == "year";
    assert WordParse(q, 3, 7, DurationUnits, true);
    assert DurationParse(q, 0, 2, 3, 7);
    DurationSlotLeftmost(q);
  }

  /** So the sample query is rejected with amount 0 whatever the model
      proposes: "46-year" holds no month count and fails the waiting period. */
  lemma SampleQueryRejected(ents: seq<Entity>, d: LlmDecision)
    requires !d.decision.Absent?
    ensures ApplyRules(ExtractSlots(SampleQuery, ents), d).Success?
    ensures var o := ApplyRules(ExtractSlots(SampleQuery, ents), d).value;
      && VerdictOf(o.ruleEvents, WaitingPeriod) == Some(Failed)
      && o.finalDecision == Some(Rejected) && o.finalAmount == Some(0)
  {
    SampleQueryDuration();
    YearHasNoM();
    DurationWithoutMonthsRejected(SampleQuery, ents, d, "46-year");
  }

  lemma YearHasNoM()
    ensures forall k :: 0 <= k < |"46-year"| ==> "46-year"[k] != 'm'
  {
  }
}

=== FILE: text.dfy ===
/** ASCII character classes, case folding and literal matching on strings, and
    the leftmost search that Python's `re.search` performs.  `\d`, `\w`, `\s`,
    `\b` and `str.lower` are restricted to ASCII throughout. */
module Text {
  import opened Wrappers

  predicate IsDigit(c: char) { '0' <= c <= '9' }

  predicate IsUpper(c: char) { 'A' <= c <= 'Z' }

  predicate IsLetter(c: char) { IsUpper(c) || 'a' <= c <= 'z' }

  /** `\w`: letters, digits and the underscore. */
  predicate IsWordChar(c: char) { IsLetter(c) || IsDigit(c) || c == '_' }

  /** `\s` in a text pattern, within ASCII: space, tab, newline, vertical
      tab, form feed, carriage return, and the separators 0x1C to 0x1F. */
  predicate IsSpace(c: char) {
    c == ' ' || ('\t' <= c <= '\r') || ('\U{1C}' <= c <= '\U{1F}')
  }

  /** The optional separator `[- ]` shared by several patterns. */
  predicate IsSep(c: char) { c == '-' || c == ' ' }

  /** `str.lower` on one ASCII character. */
  function Lower(c: char): char {
    if IsUpper(c) then (c as int + 32) as char else c
  }

  function LowerStr(s: string): string {
    seq(|s|, k requires 0 <= k < |s| => Lower(s[k]))
  }

  /** Case folding keeps the character class of a character. */
  lemma LowerKeepsClass(c: char)
    ensures IsWordChar(Lower(c)) == IsWordChar(c)
    ensures IsDigit(Lower(c)) == IsDigit(c)
    ensures IsLetter(Lower(c)) == IsLetter(c)
    ensures IsSep(Lower(c)) == IsSep(c)
  {
  }

  /** `w` occurs in `s` at position `i`. */
  predicate ContainsAt(s: string, w: string, i: nat) {
    i + |w| <= |s| && s[i..i + |w|] == w
  }

  /** Python's substring test `w in s`. */
  predicate Contains(s: string, w: string) {
    exists i: nat | i <= |s| :: ContainsAt(s, w, i)
  }

  /** The literal `w` (written in lower case) occurs at `i` of `s`, ignoring case. */
  predicate LitCI(s: string, i: nat, w: string) {
    i + |w| <= |s| && LowerStr(s[i..i + |w|]) == w
  }

  /** The zero-width assertion `\b` at position `i`. */
  predicate Boundary(s: string, i: nat) {
    (0 < i <= |s| && IsWordChar(s[i - 1])) != (i < |s| && IsWordChar(s[i]))
  }

  /** Every character of `s` in `[i, j)` is a digit. */
  predicate DigitSpan(s: string, i: nat, j: nat) {
    i <= j <= |s| && forall k :: i <= k < j ==> IsDigit(s[k])
  }

  predicate AllDigits(t: string) {
    forall k :: 0 <= k < |t| ==> IsDigit(t[k])
  }

  /** The optional separator `[- ]?` between positions `d` and `u`. */
  predicate SepOpt(s: string, d: nat, u: nat) {
    u == d || (u == d + 1 && d < |s| && IsSep(s[d]))
  }

  /** The end of the longest run of digits that starts at `i` (greedy `\d+`). */
  function DigitsEnd(s: string, i: nat): (d: nat)
    requires i <= |s|
    ensures DigitSpan(s, i, d)
    ensures d == |s| || !IsDigit(s[d])
    decreases |s| - i
  {
    if i < |s| && IsDigit(s[i]) then DigitsEnd(s, i + 1) else i
  }

  /** A run of digits that is followed by a non-digit is the greedy run. */
  lemma DigitsEndUnique(s: string, i: nat, d: nat)
    requires DigitSpan(s, i, d)
    requires d == |s| || !IsDigit(s[d])
    ensures DigitsEnd(s, i) == d
  {
  }

  /** Python's `int` on a string of ASCII decimal digits. */
  function DecimalValue(t: string): nat
    requires AllDigits(t)
  {
    if |t| == 0 then 0 else 10 * DecimalValue(t[..|t| - 1]) + (t[|t| - 1] as int - '0' as int)
  }

  /** Two digits at `i` read as a number: ten times the first plus the
      second, so below one hundred. */
  lemma TwoDigitValue(s: string, i: nat)
    requires i + 2 <= |s| && IsDigit(s[i]) && IsDigit(s[i + 1])
    ensures AllDigits(s[i..i + 2])
    ensures DecimalValue(s[i..i + 2]) == 10 * (s[i] as int - '0' as int) + (s[i + 1] as int - '0' as int)
    ensures 0 <= DecimalValue(s[i..i + 2]) <= 99
  {
    var t := s[i..i + 2];
    assert t[0] == s[i] && t[1] == s[i + 1];
    assert AllDigits(t);
    var p := t[..1];
    assert p[..0] == [] && p[0] == s[i];
    assert AllDigits(p);
    assert DecimalValue(p) == s[i] as int - '0' as int;
  }

  /** `re.search`: the first position `i` at which the matcher `at` succeeds,
      together with the end of that match. */
  function Search(s: string, at: (string, nat) -> Option<nat>, i: nat): (r: Option<(nat, nat)>)
    requires i <= |s|
    ensures r.Some? ==> i <= r.value.0 <= |s| && at(s, r.value.0) == Some(r.value.1)
    ensures r.Some? ==> forall k :: i <= k < r.value.0 ==> at(s, k).None?
    ensures r.None? ==> forall k :: i <= k <= |s| ==> at(s, k).None?
    decreases |s| - i
  {
    match at(s, i)
    case Some(j) => Some((i, j))
    case None => if i == |s| then None else Search(s, at, i + 1)
  }

  /** A word cannot occur where one of its letters never does. */
  lemma AbsentLetter(s: string, w: string, x: nat)
    requires x < |w| && forall k :: 0 <= k < |s| ==> s[k] != w[x]
    ensures !Contains(s, w)
  {
    forall i: nat | i <= |s| ensures !ContainsAt(s, w, i) {
      if i + |w| <= |s| {
        assert s[i..i + |w|][x] == s[i + x];
      }
    }
  }

  /** A lower-case letter absent from `s` in both cases is absent from its lower-casing. */
  lemma LowerAvoids(s: string, c: char)
    requires 'a' <= c <= 'z'
    requires forall k :: 0 <= k < |s| ==> s[k] != c && s[k] as int != c as int - 32
    ensures forall k :: 0 <= k < |LowerStr(s)| ==> LowerStr(s)[k] != c
  {
  }

  // ---------------------------------------------------------------------------
  // Alternations of literal words

  /** The word `w` matches at `u` ignoring case, followed by `\b` when `b` holds. */
  predicate Fits(s: string, u: nat, w: string, b: bool) {
    LitCI(s, u, w) && (b ==> Boundary(s, u + |w|))
  }

  /** The backtracking choice in an alternation of literal words: the first
      word of `ws`, from index `k` on, that matches at `u`. */
  function FirstFit(s: string, u: nat, ws: seq<string>, b: bool, k: nat): (r: Option<nat>)
    ensures r.Some? ==> k <= r.value < |ws| && Fits(s, u, ws[r.value], b)
    ensures r.Some? ==> forall x :: k <= x < r.value ==> !Fits(s, u, ws[x], b)
    ensures r.None? ==> forall x :: k <= x < |ws| ==> !Fits(s, u, ws[x], b)
    decreases |ws| - k
  {
    if k >= |ws| then None
    else if Fits(s, u, ws[k], b) then Some(k)
    else FirstFit(s, u, ws, b, k + 1)
  }

  /** The end of the alternation `ws` (then `\b` when `b` holds) matched at `u`. */
  function WordEnd(s: string, u: nat, ws: seq<string>, b: bool): (r: Option<nat>)
    ensures r.Some? ==> u <= r.value <= |s|
  {
    match FirstFit(s, u, ws, b, 0)
    case Some(x) => Some(u + |ws[x]|)
    case None => None
  }

  /** Reference reading of the alternation: `s[u..j]`, lower-cased, is one of
      the words, and a word boundary follows when `b` holds. */
  predicate WordParse(s: string, u: nat, j: nat, ws: seq<string>, b: bool) {
    u <= j <= |s| && LowerStr(s[u..j]) in ws && (b ==> Boundary(s, j))
  }

  /** `w1` and `w2` differ at some index from `k` on, within their common length. */
  predicate DifferFrom(w1: string, w2: string, k: nat)
    decreases |w1| - k
  {
    k < |w1| && k < |w2| && (w1[k] != w2[k] || DifferFrom(w1, w2, k + 1))
  }

  /** Two words that can never both match at one position: they differ within
      their common length or, when a boundary must follow, the shorter one
      stops between two word characters of the longer. */
  predicate Exclusive(w1: string, w2: string, b: bool) {
    DifferFrom(w1, w2, 0)
    || (b && 0 < |w2| < |w1| && IsWordChar(w1[|w2| - 1]) && IsWordChar(w1[|w2|]))
    || (b && 0 < |w1| < |w2| && IsWordChar(w2[|w1| - 1]) && IsWordChar(w2[|w1|]))
  }

  /** Computable check that `ws[a]` is exclusive with every `ws[c..]`, and
      every later word with the words after it. */
  predicate ExclusiveFrom(ws: seq<string>, b: bool, a: nat, c: nat)
    decreases |ws| - a, |ws| - c
  {
    if a >= |ws| then true
    else if c >= |ws| then ExclusiveFrom(ws, b, a + 1, a + 2)
    else Exclusive(ws[a], ws[c], b) && ExclusiveFrom(ws, b, a, c + 1)
  }

  /** No two words of `ws` can match at one position. */
  predicate Unambiguous(ws: seq<string>, b: bool) {
    ExclusiveFrom(ws, b, 0, 1)
  }

  lemma {:induction false} ExclusiveFromPairs(ws: seq<string>, b: bool, a: nat, c: nat)
    requires ExclusiveFrom(ws, b, a, c) && a < c
    ensures forall x, y :: a <= x < y < |ws| && (x > a || y >= c) ==> Exclusive(ws[x], ws[y], b)
    decreases |ws| - a, |ws| - c
  {
    if a < |ws| {
      if c >= |ws| {
        ExclusiveFromPairs(ws, b, a + 1, a + 2);
      } else {
        ExclusiveFromPairs(ws, b, a, c + 1);
      }
    }
  }

  lemma {:induction false} DifferWitness(w1: string, w2: string, k: nat) returns (x: nat)
    requires DifferFrom(w1, w2, k)
    ensures k <= x < |w1| && x < |w2| && w1[x] != w2[x]
    decreases |w1| - k
  {
    if w1[k] != w2[k] {
      x := k;
    } else {
      x := DifferWitness(w1, w2, k + 1);
    }
  }

  /** A word that matches at `u` rules out any word that differs from it
      within their common length. */
  lemma DifferNoFit(s: string, u: nat, w1: string, w2: string)
    requires DifferFrom(w1, w2, 0) && LitCI(s, u, w1)
    ensures !LitCI(s, u, w2)
  {
    var x := DifferWitness(w1, w2, 0);
    assert LowerStr(s[u..u + |w1|])[x] == Lower(s[u + x]);
    if u + |w2| <= |s| {
      assert LowerStr(s[u..u + |w2|])[x] == Lower(s[u + x]);
    }
  }

  /** Where `w` matches, a position inside `w` between two word characters is
      not a word boundary. */
  lemma InsideWordNoBoundary(s: string, u: nat, w: string, n: nat)
    requires LitCI(s, u, w) && 0 < n < |w| && IsWordChar(w[n - 1]) && IsWordChar(w[n])
    ensures !Boundary(s, u + n)
  {
    assert LowerStr(s[u..u + |w|])[n - 1] == Lower(s[u + n - 1]);
    assert LowerStr(s[u..u + |w|])[n] == Lower(s[u + n]);
    LowerKeepsClass(s[u + n - 1]);
    LowerKeepsClass(s[u + n]);
  }

  /** Exclusive words indeed never both match at one position. */
  lemma ExclusiveFits(s: string, u: nat, w1: string, w2: string, b: bool)
    ensures Exclusive(w1, w2, b) && Fits(s, u, w1, b) ==> !Fits(s, u, w2, b)
  {
    if DifferFrom(w1, w2, 0) && LitCI(s, u, w1) {
      DifferNoFit(s, u, w1, w2);
    }
    if b && 0 < |w2| < |w1| && IsWordChar(w1[|w2| - 1]) && IsWordChar(w1[|w2|]) && LitCI(s, u, w1) {
      InsideWordNoBoundary(s, u, w1, |w2|);
    }
    if b && 0 < |w1| < |w2| && IsWordChar(w2[|w1| - 1]) && IsWordChar(w2[|w1|]) && LitCI(s, u, w2) {
      InsideWordNoBoundary(s, u, w2, |w1|);
    }
  }

  /** In an unambiguous alternation the matcher returns the one word that
      matches, and ends exactly where the reference reading does. */
  lemma WordEndParse(s: string, u: nat, ws: seq<string>, b: bool, j: nat)
    requires Unambiguous(ws, b)
    ensures WordEnd(s, u, ws, b) == Some(j) <==> WordParse(s, u, j, ws, b)
  {
    if WordEnd(s, u, ws, b) == Some(j) {
      var x := FirstFit(s, u, ws, b, 0).value;
      assert LowerStr(s[u..j]) == ws[x];
    }
    if WordParse(s, u, j, ws, b) {
      var x :| 0 <= x < |ws| && ws[x] == LowerStr(s[u..j]);
      assert Fits(s, u, ws[x], b);
      var y := FirstFit(s, u, ws, b, 0).value;
      if y < x {
        ExclusiveFromPairs(ws, b, 0, 1);
        assert Exclusive(ws[y], ws[x], b);
        ExclusiveFits(s, u, ws[y], ws[x], b);
      }
    }
  }
}

=== FILE: wrappers.dfy ===
/** Optional values and results with an error, used for Python's `None` and for
    exceptions that escape an operation. */
module Wrappers {

  datatype Option<+T> = None | Some(value: T)

  /** Either a value or the error that the modelled code raises instead. */
  datatype Result<+R, +E> = Success(value: R) | Failure(error: E)

  /** The first of two alternatives that succeeds: regex backtracking tries
      `a` and falls back to `b` only when `a` fails. */
  function Else<T>(a: Option<T>, b: Option<T>): Option<T> {
    if a.Some? then a else b
  }
}
